=== FILE: README.md ===
# Stepper-motor calibration firmware, modelled in Dafny

The firmware in `main.c` drives a four-coil stepper motor from an RP2040.
It reads commands from the serial console and has a small state:

- the phase `row`, an index into the eight-row `turning_sequence` table;
- `revolution_steps`, the learned number of steps in one revolution;
- `calibrate_completed`, the flag that says whether that number is trusted;
- `input_command`, the ten-character line buffer, and `index`, its fill position.

The main loop polls the console one character at a time. A line is complete
on the seventh character or on a newline, and the character that completes it
is overwritten by a NUL. The completed line is then handled:

- a line that starts with `run` turns `n` eighths of a revolution (8 when no
  argument is read);
- `status` prints the learned value or "Not available";
- `calib` measures three revolutions with the opto-fork and stores the average,
  rounded up;
- anything else is ignored.

The model is functional. The state is an immutable record. The sensor is a
finite trace of samples, `true` for blocked, with one sample read per
`gpio_get` loop test. The console is a finite sequence of polls, and a poll
that delivered nothing holds 255. Every loop of the source is also written as a
Dafny method with loop invariants and is proved equal to the closed-form
function:

- the `for` loop of `runStepperMotor` is `Stepper.RunStepperMotorLoop`;
- the sensor waits, the trials and the `calibration_time` loop of `calib` are
  `Calibration.StepWhile`, `Calibration.Trial` and `Calibration.CalibLoop`;
- the poll loop of `main` is `Firmware.MainLoop`.

Modules, one per file:

- `Options`: the `Option` datatype.
- `Stepper`: the coil table and `runStepperMotor`.
- `Calibration`: `calib`, as a parse of the sensor trace into trials.
- `CommandLine`: the line buffer and the C string it yields.
- `Commands`: the command words, `sscanf("%u")`, and the `unsigned int`
  arithmetic that turns an argument into steps.
- `Firmware`: the state of `main`, `status`, the dispatch of a line, and the
  poll loop.

`run N` turns N/8 of a revolution while the 32-bit product does not wrap:
`main.c` computes `times = n * revolution_steps / 8` after calibration
(line 104) and `times = n * STEPPER_STEPS_PER_REVOLUTION / 8` before it
(line 106), both in `unsigned int`. `run` without an argument turns one
revolution; `run-1` before calibration turns 2^29 - 512 steps, because the
product wraps.

## Model

| member | source | states |
|---|---|---|
| Stepper.TableShape | main.c:58-65 | the table has eight rows; every row energises one or two coils; each step, including the wrap from row 7 to row 0, switches exactly one coil line |
| Stepper.AdvanceWraps | main.c:179-182 | the increment with reset at 8 is adding one modulo 8 |
| Stepper.ForwardIsMod | main.c:179-182 | `n` row advances from `row` reach `(row + n) % 8` |
| Stepper.RunStepperMotor | main.c:169-185 | a run of `times` steps applies exactly `times` patterns and adds `times` to the counter only when calibrating |
| Stepper.RunStepperMotorRow | main.c:171-182 | a run ends on row `(row + times) % 8`, with the counter raised by `times` when calibrating and unchanged otherwise |
| Stepper.RunStepperMotorPatterns | main.c:171-175 | the k-th pattern applied is table row `(row + k) % 8` |
| Stepper.RunStepperMotorIs | main.c:171-182 | a run is the motion to `Forward(row, times)` with the counted counter and the patterns that follow the starting row; zero steps change nothing and apply nothing |
| Stepper.RunStepperMotorLoop | main.c:171-184 | the `for` loop as written ends on row `(row + times) % 8` with the counted counter and the k-th pattern `(row + k) % 8`, and equals the recursive run |
| Stepper.FullCycle | main.c:58-65 | eight steps return to the starting row and apply every table row once, in table order, starting at the current row |
| Stepper.OneStep | main.c:142 | a one-step run applies the current row's pattern and moves to the next row |
| Calibration.RunFromIs | main.c:141-143 | a run of `n` equal samples closed by a different sample or by the end of the trace is the run a sensor wait steps through |
| Calibration.RunFromStops | main.c:141 | a sensor wait ends on the first sample that differs from the level it waits on |
| Calibration.RunFromCovers | main.c:141-143 | every sample a sensor wait steps through reads the level it waits on, and the run stays within the trace |
| Calibration.StepWhile | main.c:141-143 | one `while (gpio_get(...))` wait finishes iff the trace holds the closing edge; it then consumes the run and the edge, and its motion equals one run of as many steps |
| Calibration.Measure | main.c:146-155 | after the reset at line 147 the counter ends on the clear run plus the blocked run; the measurement finishes iff both closing edges are in the trace |
| Calibration.Trial | main.c:141-155 | one trial finishes iff the trace holds its three edges; the seeking steps move the motor but are not counted |
| Calibration.RunFromWithinWindow | main.c:141-143 | a sensor wait that ends inside a stretch of the trace steps through the same run whatever lies outside that stretch |
| Calibration.TrialSpansWithin | main.c:141-155 | a trial depends only on the samples it reads: the same samples at any position of any trace give the same spans |
| Calibration.RevolutionRuns | main.c:141-155 | in the samples of a revolution, the seek, clear and blocked waits step through exactly its three spans |
| Calibration.RevolutionRead | main.c:141-155 | a trace whose samples from some position on are those of a revolution yields that revolution's spans there, whatever precedes and follows |
| Calibration.ReadRevolution | main.c:141-155 | conversely, the samples a finished trial read are exactly the samples of the revolution with its spans |
| Calibration.RevolutionsRead | main.c:140-161 | revolutions laid end to end in the trace are read back as consecutive trials with their spans, in order, and the next trial starts right after them |
| Calibration.TrialsRead | main.c:140-161 | conversely, the samples that finished trials read are the revolutions of their spans laid end to end, and the next trial starts right after them |
| Calibration.TrialsSpans | main.c:140-161 | `k` consecutive trials, when they finish, give `k` spans and end within the trace |
| Calibration.NoneAfter | main.c:140-161 | a trace too short for `j` trials is too short for any later number of trials |
| Calibration.Stuck | main.c:140-161 | a trial that cannot finish leaves the whole calibration unfinished |
| Calibration.AverageRoundedUp | main.c:163 | `(total + 3 - 1) / 3` is the least `r` with `3 * r >= total` |
| Calibration.Calib | main.c:135-166 | `calib` finishes iff the trace holds three trials; it then keeps three counts, its estimate is their rounded-up average, and the motor has applied the patterns that follow its starting row and ended on the row they reach |
| Calibration.CalibOfRevolutions | main.c:135-166 | when the trace holds three revolutions from the current position on, `calib` finishes right after them; its counts are their clear-plus-blocked runs, in order, and it applies one pattern per step of their seek, clear and blocked runs |
| Calibration.CalibOfThree | main.c:135-166 | a trace made of any samples, then three revolutions, then any samples makes `calib` started after the first samples finish right after the revolutions, with their clear-plus-blocked runs as counts and one pattern per step of their three waits |
| Calibration.CalibRead | main.c:135-166 | conversely, when `calib` finishes, the samples it read are three revolutions whose clear-plus-blocked runs are its counts and whose steps are the patterns it applied |
| Calibration.CalibLoop | main.c:135-166 | the `calibration_time` loop as written, with `total_calibration`, equals `Calib`, including when a trial never finishes |
| CommandLine.CString | main.c:95-97 | the line handed over is the buffer up to its first NUL |
| CommandLine.CStringStops | main.c:95 | whatever follows the NUL written at `index - 1` is not part of the line |
| CommandLine.EmptyBuffer | main.c:78-81 | the zeroed buffer with `index` 0 is a valid buffer |
| CommandLine.Feed | main.c:91-96 | storing a character completes the line iff it is the seventh or a newline; the completed line drops that character; otherwise `index` grows by one, the stored prefix is kept, and fewer than seven slots are ever filled |
| CommandLine.Type | main.c:91-96 | characters fed one by one keep a pending buffer valid, so `index` stays below 7 |
| CommandLine.TypePending | main.c:91-93 | fewer than seven characters, none a newline, are appended to the buffer and leave it pending |
| CommandLine.TypeSplit | main.c:91-96 | typing two pieces of input is typing the second into the buffer the first leaves |
| CommandLine.NewlineEndsLine | main.c:94-95 | a newline after up to six characters ends the line, and the newline is not part of it |
| CommandLine.SeventhEndsLine | main.c:94-95 | the seventh character ends the line whatever it is, and is dropped |
| Commands.Uint32 | main.c:104 | conversion to `unsigned int` lies below 2^32 and keeps every value already in range |
| Commands.ScanUnsigned | main.c:101 | a successful `%u` scan yields a 32-bit value |
| Commands.ScanDecimal | main.c:101 | the numeral of any 32-bit value scans back to that value, whatever non-digit follows |
| Commands.ScanSkipsSpace | main.c:101 | white space before the number is skipped |
| Commands.ScanNegative | main.c:101 | a minus sign negates the value modulo 2^32 |
| Commands.ScanNoDigits | main.c:101 | a string without a digit scans to nothing |
| Commands.Classify | main.c:97-115 | a line is `run` iff it starts with `run`, `status` iff it is exactly `status`, `calib` iff it is exactly `calib`; a `run` line shorter than five characters uses the default of 8; a longer one uses the value scanned after `run`, or the default of 8 when the scan finds no number |
| Commands.RunUnparsed | main.c:98-101 | a `run` line of five or more characters with no digit after `run`, such as `runner` or `run ab`, keeps the default of eight eighths |
| Commands.RunAlone | main.c:97-100 | `run` alone turns eight eighths |
| Commands.RunSpaced | main.c:97-101 | `run N` with a one- or two-digit `N` turns `N` eighths |
| Commands.RunAdjacent | main.c:97-101 | `runNN` and `runNNN` turn `NN` and `NNN` eighths |
| Commands.RunOneDigitIgnored | main.c:100 | `runN` with one digit is shorter than five characters and turns the default eight eighths whatever the digit |
| Commands.StepsFor | main.c:103-107 | the step count of a `run` is an `unsigned int` divided by 8 |
| Commands.UncalibratedSteps | main.c:106 | before calibration each eighth is 512 steps, modulo 2^29 because the product wraps at 2^32 before the division; exactly `512 * n` while `n < 2^20` |
| Commands.CalibratedSteps | main.c:104 | after calibration a product below 2^32 gives `n * revolution_steps / 8` |
| Commands.OneRevolution | main.c:98-107 | `run` without an argument turns 4096 steps before calibration and `revolution_steps` steps after it |
| Commands.RunSixteenUncalibrated | main.c:97-106 | `run16` before calibration turns 8192 steps |
| Firmware.Boot | main.c:78-86 | the state at start-up has an empty buffer, row 0, no estimate, the flag clear and no sensor sample read |
| Firmware.StatusReport | main.c:127-133 | `status` prints "Not available" iff the flag is clear, and otherwise prints `revolution_steps` |
| Firmware.Dispatch | main.c:97-115 | only `calib` can fail to return; a handled line leaves the buffer alone, reads the sensor only forward, prints iff it is `status`, never clears the flag, and puts the table rows on the coils in order from the current row, one per step, ending on the row they lead to |
| Firmware.TurnedJoin | main.c:171-182 | two turns of the motor one after the other are one turn from the first starting row |
| Firmware.RunDispatch | main.c:97-108 | a `run` line applies exactly the computed number of table patterns from the current row on, moves the row by as many steps, and changes nothing else: not the estimate, not the flag, not the sensor position |
| Firmware.RunUncalibrated | main.c:105-108 | before calibration `run n` applies `512 * n` patterns modulo 2^29, exactly `512 * n` while `n < 2^20`, and ends on the row it started from |
| Firmware.WholeCycles | main.c:106 | the uncalibrated step count `512 * n` modulo 2^29 is a whole number of eight-row cycles |
| Firmware.Cycles | main.c:179-182 | any whole number of eight-row cycles brings the row back to where it started |
| Firmware.StatusDispatch | main.c:109-111 | `status` changes nothing and reports "Not available" iff the flag is clear |
| Firmware.CalibDispatch | main.c:112-114 | `calib` returns iff the trace holds three trials; it then sets the flag, stores the motor `calib` leaves, prints nothing, and the coils receive the patterns `calib` applied |
| Firmware.UnknownDispatch | main.c:97-115 | any other line changes nothing and prints nothing |
| Firmware.Poll | main.c:90-119 | one poll keeps the buffer valid and the sensor position in the trace, never clears the flag, does nothing on 255, only stores a character that does not complete the line, empties the buffer after every completed line, and drives the coils through the table in order from the current row |
| Firmware.Execute | main.c:88-123 | the poll loop keeps the buffer valid, never clears the flag, and over all its polls drives the coils through the table in order from the starting row, ending on the row they lead to |
| Firmware.Idle | main.c:90-91 | polls that deliver nothing change nothing |
| Firmware.TypingOnly | main.c:91-93 | characters short of a line only fill the buffer |
| Firmware.TypedLine | main.c:90-119 | a line of up to six characters and a newline is dispatched from the empty buffer, which is empty again afterwards |
| Firmware.SeventhLine | main.c:90-119 | six characters and any seventh are dispatched as the line of the six from the empty buffer, which is empty again afterwards |
| Firmware.UnknownLine | main.c:97-119 | a typed line that names no command leaves the firmware as it was |
| Firmware.StatusAtBoot | main.c:127-133 | `status` typed right after start-up prints "Not available" |
| Firmware.PollOnce | main.c:90-121 | the inner loop body as written equals `Poll` |
| Firmware.HandleLine | main.c:97-115 | the dispatch on `Classify`, calling the loop versions of `runStepperMotor` and `calib`, equals `Dispatch` |
| Firmware.MainLoop | main.c:88-123 | the poll loop as written equals `Execute` from the start-up state |
| Firmware.Blocked | main.c:112-114 | once a `calib` never returns, later polls are never read |

## Left out

- `initializePins`, I2C, the LEDs, the buttons and the EEPROM constants: peripheral set-up with no logic to model.
- `sleep_ms`, both the 4 ms step delay and the 1500 ms settle: timing is not modelled, only the order of steps.
- All `printf` output except the two lines of `status`: the `Boot` line and the calibration messages are not modelled.
- The GPIO calls themselves. Each group of four `gpio_put` writes is one coil pattern, and the patterns are kept in order as the `emitted` output of `runStepperMotor`, `calib`, `Dispatch`, `Poll` and `Execute`. `gpio_get` is the sensor trace.
- Polls are Dafny `char` values, so the model also accepts characters above 255 that the one-byte `chr` of `main.c:80` cannot hold. Such a character is stored in the buffer like any other.
- `getchar_timeout_us(0)` is a finite sequence of polls, and the endless loop of `main` runs over that sequence. The character 255 stands for "nothing received", so a real 0xFF byte is lost, as it is on the device.
- A `calib` that waits for an edge that never comes blocks forever on the device, still stepping the motor inside its seek or measure wait (`main.c:141-155`). The model answers `None` when the trace runs out, and the poll loop then reports that it blocked. The blocked trace leaves out the coil patterns that the unfinished `calib` applied before the trace ran out. It also keeps the motor, the flag and the sensor position from before the line, not the row and counter the motor had reached.
- Calibration.Calib: `revolution_steps` and `total_calibration` are unbounded integers; C `int` overflow needs counts near 2^31 steps and is not modelled.
- Stepper.RunStepperMotor: `times` is a natural number, not an `unsigned int`. Every caller passes a value below 2^32: `StepsFor` bounds the `run` case, and the sensor waits pass 1.
- Commands.ScanUnsigned: a numeral beyond 2^32 wraps instead of saturating as `strtoul` does. A line holds at most three characters after `run`, so no such numeral reaches it from `main`.
- Nothing is left out of the `strlen >= 5` test at `main.c:100`. The argument is read only from lines of at least five characters, so `run5` turns the default eight eighths, and the model keeps this behaviour.

=== FILE: calibration.dfy ===
/** The calibration routine `calib`. Each of three trials seeks the clear
    state of the opto-fork without counting, resets the shared step counter,
    then counts the steps through one clear run and the blocked run that
    follows it. The learned steps per revolution is the rounded-up average
    of the three counts.

    The opto-fork is a trace of samples, `true` for blocked (input high),
    consumed one per loop test and read from a position `pos` on. Where the
    real routine would wait forever because the sensor never changes, the
    model runs out of trace and answers `None`. */
module Calibration {
  import opened Options
  import opened Stepper

  /** Number of measured revolutions, the bound on `calibration_time`. */
  const TRIALS: nat := 3

  /** Sensor readings: the input is high while the fork is blocked. */
  const BLOCKED: bool := true
  const CLEAR: bool := false

  /** `n` samples that all read `level`. */
  function Constant(level: bool, n: nat): seq<bool> {
    seq(n, _ => level)
  }

  /** Number of consecutive samples reading `level` from position `from` on. */
  function RunFrom(level: bool, sensor: seq<bool>, from: nat): (n: nat)
    decreases |sensor| - from
  {
    if from >= |sensor| || sensor[from] != level then 0 else 1 + RunFrom(level, sensor, from + 1)
  }

  /** A run from within the trace stays within it. */
  lemma {:induction false} RunFromWithin(level: bool, sensor: seq<bool>, from: nat)
    requires from <= |sensor|
    ensures from + RunFrom(level, sensor, from) <= |sensor|
    decreases |sensor| - from
  {
    if from < |sensor| && sensor[from] == level {
      RunFromWithin(level, sensor, from + 1);
    }
  }

  /** The run ends on the first sample that does not read `level`. */
  lemma {:induction false} RunFromStops(level: bool, sensor: seq<bool>, from: nat)
    requires from <= |sensor|
    ensures from + RunFrom(level, sensor, from) < |sensor| ==> sensor[from + RunFrom(level, sensor, from)] != level
    decreases |sensor| - from
  {
    if from < |sensor| && sensor[from] == level {
      RunFromStops(level, sensor, from + 1);
    }
  }

  /** Every sample the run covers reads `level`. */
  lemma {:induction false} RunFromCovers(level: bool, sensor: seq<bool>, from: nat)
    requires from <= |sensor|
    ensures from + RunFrom(level, sensor, from) <= |sensor|
    ensures sensor[from..from + RunFrom(level, sensor, from)] == Constant(level, RunFrom(level, sensor, from))
    decreases |sensor| - from
  {
    var n := RunFrom(level, sensor, from);
    RunFromWithin(level, sensor, from);
    if n > 0 {
      RunFromCovers(level, sensor, from + 1);
      var rest := sensor[from + 1..from + n];
      assert rest == Constant(level, n - 1);
      assert sensor[from..from + n] == [level] + rest;
    }
  }

  /** A run of `n` samples reading `level`, ended by a different sample or by
      the end of the trace, is the run `RunFrom` finds. */
  lemma {:induction false} RunFromIs(level: bool, sensor: seq<bool>, from: nat, n: nat)
    requires from + n <= |sensor|
    requires forall i | from <= i < from + n :: sensor[i] == level
    requires from + n < |sensor| ==> sensor[from + n] != level
    ensures RunFrom(level, sensor, from) == n
    decreases n
  {
    if n > 0 {
      RunFromIs(level, sensor, from + 1, n - 1);
    }
  }


  /** The lengths of the three sensor runs one trial steps through: the
      blocked samples passed while seeking, then the clear run and the
      blocked run that are counted. */
  datatype Spans = Spans(seek: nat, clear: nat, blocked: nat)

  /** Steps one trial takes. */
  function Stepped(sp: Spans): nat {
    sp.seek + sp.clear + sp.blocked
  }

  /** Steps one trial counts. */
  function Counted3(sp: Spans): nat {
    sp.clear + sp.blocked
  }

  /** Samples one trial reads: one per step plus the three that end its loops. */
  function Consumed(sp: Spans): nat {
    Stepped(sp) + 3
  }

  /** The samples a trial with these spans reads: blocked while seeking, the
      falling edge, the clear run, the rising edge, the blocked run, and the
      falling edge that ends it. */
  function Revolution(sp: Spans): seq<bool> {
    Constant(BLOCKED, sp.seek) + [CLEAR] + Constant(CLEAR, sp.clear) + [BLOCKED] + Constant(BLOCKED, sp.blocked) + [CLEAR]
  }

  /** The counted runs of a trial whose clear run starts at `pos`: the clear
      run and the blocked run after it, or `None` when the trace ends before
      the edge that closes one of them. */
  function MeasuredRuns(sensor: seq<bool>, pos: nat): (r: Option<(nat, nat)>)
  {
    var b := RunFrom(CLEAR, sensor, pos);
    if pos + b >= |sensor| then None
    else
      var blocked := pos + b + 1;
      var c := RunFrom(BLOCKED, sensor, blocked);
      if blocked + c >= |sensor| then None else Some((b, c))
  }

  /** The spans of the trial starting at `pos`, read off the trace, or `None`
      when the trace ends before the edge that closes one of its loops. */
  function TrialSpans(sensor: seq<bool>, pos: nat): (r: Option<Spans>)
  {
    if |sensor| < pos then None
    else
      var a := RunFrom(BLOCKED, sensor, pos);
      if pos + a >= |sensor| then None
      else
        match MeasuredRuns(sensor, pos + a + 1)
        case None => None
        case Some(runs) => Some(Spans(a, runs.0, runs.1))
  }

  /** The trace reads the samples `w` from position `pos` on. */
  predicate Holds(sensor: seq<bool>, pos: nat, w: seq<bool>) {
    pos + |w| <= |sensor| && forall i {:trigger w[i]} | 0 <= i < |w| :: sensor[pos + i] == w[i]
  }

  /** `Holds` is the window of the trace being `w`. */
  lemma HoldsIsSlice(sensor: seq<bool>, pos: nat, w: seq<bool>)
    ensures Holds(sensor, pos, w) <==> pos + |w| <= |sensor| && sensor[pos..pos + |w|] == w
  {
    if pos + |w| <= |sensor| && sensor[pos..pos + |w|] == w {
      forall i | 0 <= i < |w|
        ensures sensor[pos + i] == w[i]
      {
        assert sensor[pos..pos + |w|][i] == w[i];
      }
    }
    if Holds(sensor, pos, w) {
      assert sensor[pos..pos + |w|] == w;
    }
  }

  /** A trace whose samples from `pos` on are those of a revolution yields
      that revolution's spans there, whatever precedes and follows. */
  lemma RevolutionRead(s: seq<bool>, pos: nat, sp: Spans)
    requires Holds(s, pos, Revolution(sp))
    ensures TrialSpans(s, pos) == Some(sp)
  {
    RevolutionAlone(sp);
    TrialSpansWithin(s, pos, Revolution(sp), 0);
  }

  /** A revolution on its own is read back as its spans. */
  lemma RevolutionAlone(sp: Spans)
    ensures TrialSpans(Revolution(sp), 0) == Some(sp)
  {
    RevolutionRuns(sp);
    var a, b, c := sp.seek, sp.clear, sp.blocked;
    SpansFrom(Revolution(sp), 0, a, a + 1, b, a + b + 2, c);
  }

  /** A trial depends only on the samples it reads: when the trace holds `w`
      from `lo` on and `w` holds a whole trial from `p` on, the trace reads
      the same trial from `lo + p` on. */
  lemma TrialSpansWithin(sensor: seq<bool>, lo: nat, w: seq<bool>, p: nat)
    requires Holds(sensor, lo, w) && TrialSpans(w, p).Some?
    ensures TrialSpans(sensor, lo + p) == TrialSpans(w, p)
  {
    var a := RunFrom(BLOCKED, w, p);
    RunFromWithinWindow(BLOCKED, sensor, lo, w, p);
    var b := RunFrom(CLEAR, w, p + a + 1);
    RunFromWithinWindow(CLEAR, sensor, lo, w, p + a + 1);
    var c := RunFrom(BLOCKED, w, p + a + b + 2);
    RunFromWithinWindow(BLOCKED, sensor, lo, w, p + a + b + 2);
    SpansFrom(sensor, lo + p, a, lo + p + a + 1, b, lo + p + a + b + 2, c);
  }

  /** A run that ends inside a window of the trace has the same length in
      the window as in the trace. */
  lemma {:induction false} RunFromWithinWindow(level: bool, sensor: seq<bool>, lo: nat, w: seq<bool>, k: nat)
    requires Holds(sensor, lo, w) && k + RunFrom(level, w, k) < |w|
    ensures RunFrom(level, sensor, lo + k) == RunFrom(level, w, k)
    decreases |w| - k
  {
    assert sensor[lo + k] == w[k];
    if w[k] == level {
      RunFromWithinWindow(level, sensor, lo, w, k + 1);
    }
  }

  /** The three runs of a revolution. */
  lemma RevolutionRuns(sp: Spans)
    ensures RunFrom(BLOCKED, Revolution(sp), 0) == sp.seek
    ensures RunFrom(CLEAR, Revolution(sp), sp.seek + 1) == sp.clear
    ensures RunFrom(BLOCKED, Revolution(sp), sp.seek + sp.clear + 2) == sp.blocked
  {
    var ka, kb, kc := Constant(BLOCKED, sp.seek), Constant(CLEAR, sp.clear), Constant(BLOCKED, sp.blocked);
    var r := Revolution(sp);
    assert r == [] + ka + [CLEAR] + (kb + [BLOCKED] + kc + [CLEAR]);
    RunAfter(BLOCKED, [], sp.seek, kb + [BLOCKED] + kc + [CLEAR]);
    assert r == (ka + [CLEAR]) + kb + [BLOCKED] + (kc + [CLEAR]);
    RunAfter(CLEAR, ka + [CLEAR], sp.clear, kc + [CLEAR]);
    assert r == (ka + [CLEAR] + kb + [BLOCKED]) + kc + [CLEAR] + [];
    RunAfter(BLOCKED, ka + [CLEAR] + kb + [BLOCKED], sp.blocked, []);
  }

  /** A run of `n` samples reading `level`, closed by an edge, after the
      samples `p`. */
  lemma RunAfter(level: bool, p: seq<bool>, n: nat, y: seq<bool>)
    ensures RunFrom(level, p + Constant(level, n) + [!level] + y, |p|) == n
  {
    var s := p + Constant(level, n) + [!level] + y;
    forall i | |p| <= i < |p| + n
      ensures s[i] == level
    {
      assert s[i] == Constant(level, n)[i - |p|];
    }
    assert s[|p| + n] == !level;
    RunFromIs(level, s, |p|, n);
  }

  /** The spans of a trial, given the three runs it steps through. */
  lemma SpansFrom(sensor: seq<bool>, pos: nat, a: nat, cleared: nat, b: nat, blocked: nat, c: nat)
    requires cleared == pos + a + 1 && blocked == cleared + b + 1 && blocked + c < |sensor|
    requires RunFrom(BLOCKED, sensor, pos) == a
    requires RunFrom(CLEAR, sensor, cleared) == b
    requires RunFrom(BLOCKED, sensor, blocked) == c
    ensures TrialSpans(sensor, pos) == Some(Spans(a, b, c))
  {
    assert MeasuredRuns(sensor, cleared) == Some((b, c));
  }

  /** A run ended by an edge: `n` samples reading `level`, then one that does not. */
  lemma RunThenEdge(level: bool, sensor: seq<bool>, from: nat, n: nat)
    requires RunFrom(level, sensor, from) == n && from + n < |sensor|
    ensures sensor[from..from + n + 1] == Constant(level, n) + [!level]
  {
    RunFromCovers(level, sensor, from);
    RunFromStops(level, sensor, from);
    assert sensor[from..from + n + 1] == sensor[from..from + n] + [sensor[from + n]];
  }

  /** Conversely, the samples a trial reads are exactly those of a revolution
      with its spans. */
  lemma ReadRevolution(sensor: seq<bool>, pos: nat)
    requires TrialSpans(sensor, pos).Some?
    ensures Holds(sensor, pos, Revolution(TrialSpans(sensor, pos).value))
  {
    var sp := TrialSpans(sensor, pos).value;
    RunsRevolution(sensor, pos, sp.seek, pos + sp.seek + 1, sp.clear, pos + sp.seek + sp.clear + 2, sp.blocked);
    RevolutionLength(sp);
    HoldsIsSlice(sensor, pos, Revolution(sp));
  }

  /** Three runs, each closed by an edge, laid end to end form a revolution. */
  lemma RunsRevolution(sensor: seq<bool>, pos: nat, a: nat, cleared: nat, b: nat, blocked: nat, c: nat)
    requires cleared == pos + a + 1 && blocked == cleared + b + 1 && blocked + c < |sensor|
    requires RunFrom(BLOCKED, sensor, pos) == a
    requires RunFrom(CLEAR, sensor, cleared) == b
    requires RunFrom(BLOCKED, sensor, blocked) == c
    ensures sensor[pos..blocked + c + 1] == Revolution(Spans(a, b, c))
  {
    var ended := blocked + c + 1;
    RunThenEdge(BLOCKED, sensor, pos, a);
    RunThenEdge(CLEAR, sensor, cleared, b);
    RunThenEdge(BLOCKED, sensor, blocked, c);
    JoinSlices(sensor, pos, cleared, blocked, ended);
    Assemble(sensor[pos..cleared], sensor[cleared..blocked], sensor[blocked..ended], a, b, c);
  }

  lemma Assemble(x: seq<bool>, y: seq<bool>, z: seq<bool>, a: nat, b: nat, c: nat)
    requires x == Constant(BLOCKED, a) + [CLEAR]
    requires y == Constant(CLEAR, b) + [BLOCKED]
    requires z == Constant(BLOCKED, c) + [CLEAR]
    ensures x + y + z == Revolution(Spans(a, b, c))
  {
  }

  lemma JoinSlices(s: seq<bool>, i: nat, j: nat, k: nat, l: nat)
    requires i <= j <= k <= l <= |s|
    ensures s[i..l] == s[i..j] + s[j..k] + s[k..l]
  {
  }

  /** The spans of a sequence of trials and the sample after the last. */
  datatype Trials = Trials(spans: seq<Spans>, next: nat)

  /** The spans of `k` consecutive trials from `pos`, each starting on the
      sample after the one that ended the previous trial. */
  function TrialsSpans(k: nat, sensor: seq<bool>, pos: nat): (r: Option<Trials>)
    ensures r.Some? ==> |r.value.spans| == k && pos <= r.value.next
    ensures r.Some? && pos <= |sensor| ==> r.value.next <= |sensor|
    decreases k
  {
    if k == 0 then Some(Trials([], pos))
    else
      match TrialsSpans(k - 1, sensor, pos)
      case None => None
      case Some(t) =>
        match TrialSpans(sensor, t.next)
        case None => None
        case Some(sp) => Some(Trials(t.spans + [sp], t.next + Consumed(sp)))
  }

  /** Steps taken by a sequence of trials. */
  function SteppedAll(spans: seq<Spans>): nat {
    if |spans| == 0 then 0 else SteppedAll(spans[..|spans| - 1]) + Stepped(spans[|spans| - 1])
  }

  /** The count of each trial. */
  function Counts(spans: seq<Spans>): seq<nat> {
    seq(|spans|, i requires 0 <= i < |spans| => Counted3(spans[i]))
  }

  function Sum(s: seq<nat>): nat {
    if |s| == 0 then 0 else Sum(s[..|s| - 1]) + s[|s| - 1]
  }

  /** Appending a trial adds its steps. */
  lemma LastSpans(spans: seq<Spans>, sp: Spans)
    ensures SteppedAll(spans + [sp]) == SteppedAll(spans) + Stepped(sp)
  {
  }

  /** Appending a trial appends its count, which the total then includes. */
  lemma LastCount(spans: seq<Spans>, sp: Spans)
    ensures Counts(spans + [sp]) == Counts(spans) + [Counted3(sp)]
    ensures Sum(Counts(spans + [sp])) == Sum(Counts(spans)) + Counted3(sp)
  {
  }

  /** `(total_calibration + 3 - 1) / 3`: the least value whose triple covers
      the total, i.e. the average of the three counts rounded up. */
  function AverageRoundedUp(total: nat): (r: nat)
    ensures TRIALS * r >= total
    ensures TRIALS * (r - 1) < total
  {
    (total + TRIALS - 1) / TRIALS
  }

  /** Outcome of a calibration: the motor, the next unread sample, the
      patterns applied and the count of every trial, in order. */
  datatype Calibrated = Calibrated(motor: Motor, next: nat, emitted: seq<Coils>, counts: seq<nat>)

  /** What `calib` computes, in closed form over the spans of its three
      trials: the motor has taken every step of every trial, applying the
      patterns that follow its starting row, and the counter holds the
      rounded-up average of the counts. `None` when the trace runs out
      first, where the device would wait for ever. */
  function Calib(m: Motor, sensor: seq<bool>, pos: nat): (r: Option<Calibrated>)
    requires pos <= |sensor|
    ensures r.Some? <==> TrialsSpans(TRIALS, sensor, pos).Some?
    ensures r.Some? ==>
      && |r.value.counts| == TRIALS
      && TRIALS * r.value.motor.revolutionSteps >= r.value.counts[0] + r.value.counts[1] + r.value.counts[2]
      && TRIALS * (r.value.motor.revolutionSteps - 1) < r.value.counts[0] + r.value.counts[1] + r.value.counts[2]
      && r.value.motor.row == Forward(m.row, |r.value.emitted|)
      && r.value.emitted == Patterns(m.row, |r.value.emitted|)
      && pos <= r.value.next <= |sensor|
  {
    match TrialsSpans(TRIALS, sensor, pos)
    case None => None
    case Some(t) =>
      SumOfThree(Counts(t.spans));
      Some(Settled(m, t))
  }

  /** The outcome once the trials are read off the trace. */
  function Settled(m: Motor, t: Trials): Calibrated {
    var steps := SteppedAll(t.spans);
    Calibrated(Motor(Forward(m.row, steps), AverageRoundedUp(Sum(Counts(t.spans)))), t.next, Patterns(m.row, steps), Counts(t.spans))
  }

  lemma SumOfThree(s: seq<nat>)
    requires |s| == 3
    ensures Sum(s) == s[0] + s[1] + s[2]
  {
    var two, one := s[..2], s[..1];
    assert two[..1] == one && one[..0] == [];
    assert Sum(one) == s[0];
    assert Sum(two) == Sum(one) + s[1];
  }

  /** The motion made while waiting, and the position of the next unread sample. */
  datatype Wait = Wait(motion: Motion, next: nat)

  /** One `while (gpio_get(OPTO_FORK) == level)` loop whose body is
      `runStepperMotor(row, calibrating, revolution_steps, 1)`, reading the
      trace from position `pos`. Every loop test reads one sample; the
      sample that ends the loop is consumed too. By `RunStepperMotorIs`,
      waiting through `n` samples is the same motion as one run of `n` steps. */
  method StepWhile(level: bool, sensor: seq<bool>, pos: nat, m: Motor, calibrating: bool) returns (r: Option<Wait>)
    requires pos <= |sensor|
    ensures r.Some? <==> pos + RunFrom(level, sensor, pos) < |sensor|
    ensures r.Some? ==>
      var n := RunFrom(level, sensor, pos);
      && r.value.next == pos + n + 1
      && r.value.motion.motor == Motor(Forward(m.row, n), Counted(m, calibrating, n))
      && r.value.motion.emitted == Patterns(m.row, n)
  {
    var motor, emitted, p := m, [], pos;
    while p < |sensor| && sensor[p] == level
      invariant pos <= p <= |sensor|
      invariant forall i | pos <= i < p :: sensor[i] == level
      invariant motor == Motor(Forward(m.row, p - pos), Counted(m, calibrating, p - pos))
      invariant emitted == Patterns(m.row, p - pos)
      decreases |sensor| - p
    {
      var step := RunStepperMotor(motor, calibrating, 1);
      OneMore(m.row, p - pos, motor.row, emitted);
      OneStep(motor, calibrating);
      motor, emitted, p := step.motor, emitted + step.emitted, p + 1;
    }
    RunFromIs(level, sensor, pos, p - pos);
    if p == |sensor| {
      return None;
    }
    r := Some(Wait(Motion(motor, emitted), p + 1));
  }

  /** One more step after `n` continues both the row count and the patterns. */
  lemma OneMore(row: Phase, n: nat, at: Phase, e: seq<Coils>)
    requires at == Forward(row, n) && e == Patterns(row, n)
    ensures Advance(at) == Forward(row, n + 1)
    ensures e + [TurningSequence[at]] == Patterns(row, n + 1)
  {
    ForwardAdd(row, n, 1);
    JoinRuns(row, n, 1, at, e, [TurningSequence[at]]);
  }

  /** Patterns of two runs back to back, the second starting where the first
      stopped, are the patterns of one run as long as both. */
  lemma JoinRuns(row: Phase, a: nat, n: nat, mid: Phase, x: seq<Coils>, y: seq<Coils>)
    requires mid == Forward(row, a)
    requires x == Patterns(row, a) && y == Patterns(mid, n)
    ensures x + y == Patterns(row, a + n)
  {
    PatternsJoin(row, a, n);
  }

  /** Appending a run of `n` steps to a motion that has taken `stepped`
      steps from `row` keeps it continuous. */
  lemma Extend(row: Phase, stepped: nat, n: nat, at: Phase, e: seq<Coils>, more: seq<Coils>)
    requires at == Forward(row, stepped) && e == Patterns(row, stepped)
    requires more == Patterns(at, n)
    ensures Forward(at, n) == Forward(row, stepped + n)
    ensures e + more == Patterns(row, stepped + n)
  {
    ForwardAdd(row, stepped, n);
    JoinRuns(row, stepped, n, at, e, more);
  }

  /** Once the trace is too short for `j` trials it is too short for more. */
  lemma {:induction false} NoneAfter(j: nat, k: nat, sensor: seq<bool>, pos: nat)
    requires pos <= |sensor| && j <= k
    requires TrialsSpans(j, sensor, pos).None?
    ensures TrialsSpans(k, sensor, pos).None?
    decreases k - j
  {
    if j < k {
      NoneAfter(j, k - 1, sensor, pos);
    }
  }

  /** A trial that cannot finish leaves the whole calibration unfinished. */
  lemma Stuck(k: nat, sensor: seq<bool>, pos: nat, t: Trials)
    requires pos <= |sensor| && k < TRIALS
    requires TrialsSpans(k, sensor, pos) == Some(t)
    requires TrialSpans(sensor, t.next).None?
    ensures TrialsSpans(TRIALS, sensor, pos).None?
  {
    var j := k + 1;
    assert TrialsSpans(j, sensor, pos).None?;
    NoneAfter(j, TRIALS, sensor, pos);
  }

  /** A trial that finishes extends the trials before it. */
  lemma Finished(k: nat, sensor: seq<bool>, pos: nat, t: Trials, sp: Spans)
    requires TrialsSpans(k, sensor, pos) == Some(t)
    requires TrialSpans(sensor, t.next) == Some(sp)
    ensures TrialsSpans(k + 1, sensor, pos) == Some(Trials(t.spans + [sp], t.next + Consumed(sp)))
  {
  }

  /** The counted part of a trial from sample `p`: `*revolution_steps = 0`,
      then step through the clear run and the blocked run after it with
      `calibrating` set, so the counter ends on the steps of both runs. */
  method Measure(sensor: seq<bool>, p: nat, row: Phase) returns (r: Option<Wait>)
    requires p <= |sensor|
    ensures r.Some? <==> MeasuredRuns(sensor, p).Some?
    ensures r.Some? ==>
      var n := MeasuredRuns(sensor, p).value.0 + MeasuredRuns(sensor, p).value.1;
      && r.value.next == p + n + 2
      && r.value.motion.motor == Motor(Forward(row, n), n)
      && r.value.motion.emitted == Patterns(row, n)
  {
    var clear := StepWhile(CLEAR, sensor, p, Motor(row, 0), true);
    if clear.None? {
      return None;
    }
    ghost var b := RunFrom(CLEAR, sensor, p);
    var blocked := StepWhile(BLOCKED, sensor, clear.value.next, clear.value.motion.motor, true);
    if blocked.None? {
      return None;
    }
    ghost var c := RunFrom(BLOCKED, sensor, clear.value.next);
    assert MeasuredRuns(sensor, p) == Some((b, c));
    Extend(row, b, c, clear.value.motion.motor.row, clear.value.motion.emitted, blocked.value.motion.emitted);
    r := Some(Wait(Motion(blocked.value.motion.motor, clear.value.motion.emitted + blocked.value.motion.emitted), blocked.value.next));
  }

  /** One pass of the body of the `calibration_time` loop from sample `p`:
      seek the falling edge with `calibrating` false, then measure. The
      counter it leaves is the trial's count; the seeking steps are not in it. */
  method Trial(sensor: seq<bool>, p: nat, motor: Motor) returns (r: Option<Wait>)
    requires p <= |sensor|
    ensures r.Some? <==> TrialSpans(sensor, p).Some?
    ensures r.Some? ==> r.value.next == p + Consumed(TrialSpans(sensor, p).value)
    ensures r.Some? ==>
      r.value.motion.motor == Motor(Forward(motor.row, Stepped(TrialSpans(sensor, p).value)), Counted3(TrialSpans(sensor, p).value))
    ensures r.Some? ==> r.value.motion.emitted == Patterns(motor.row, Stepped(TrialSpans(sensor, p).value))
  {
    var seek := StepWhile(BLOCKED, sensor, p, motor, false);
    if seek.None? {
      return None;
    }
    ghost var a := RunFrom(BLOCKED, sensor, p);
    var t := Measure(sensor, seek.value.next, seek.value.motion.motor.row);
    if t.None? {
      return None;
    }
    ghost var runs := MeasuredRuns(sensor, seek.value.next).value;
    assert TrialSpans(sensor, p) == Some(Spans(a, runs.0, runs.1));
    Extend(motor.row, a, runs.0 + runs.1, seek.value.motion.motor.row, seek.value.motion.emitted, t.value.motion.emitted);
    r := Some(Wait(Motion(t.value.motion.motor, seek.value.motion.emitted + t.value.motion.emitted), t.value.next));
  }

  /** The row and the patterns after one more trial continue those before it. */
  lemma NextTrial(row: Phase, spans: seq<Spans>, sp: Spans, at: Phase, e: seq<Coils>, to: Phase, more: seq<Coils>)
    requires at == Forward(row, SteppedAll(spans)) && e == Patterns(row, SteppedAll(spans))
    requires to == Forward(at, Stepped(sp)) && more == Patterns(at, Stepped(sp))
    ensures to == Forward(row, SteppedAll(spans + [sp]))
    ensures e + more == Patterns(row, SteppedAll(spans + [sp]))
  {
    Extend(row, SteppedAll(spans), Stepped(sp), at, e, more);
    LastSpans(spans, sp);
  }

  /** Once all three trials are read off the trace, `calib` settles on them. */
  lemma CalibIs(m: Motor, sensor: seq<bool>, pos: nat, t: Trials)
    requires pos <= |sensor|
    requires TrialsSpans(TRIALS, sensor, pos) == Some(t)
    ensures Calib(m, sensor, pos) == Some(Settled(m, t))
  {
  }

  /** The samples a sequence of trials reads: their revolutions, end to end. */
  function Revolutions(spans: seq<Spans>): seq<bool> {
    if |spans| == 0 then [] else Revolutions(spans[..|spans| - 1]) + Revolution(spans[|spans| - 1])
  }

  lemma RevolutionLength(sp: Spans)
    ensures |Revolution(sp)| == Consumed(sp)
  {
  }

  lemma RevolutionsSnoc(front: seq<Spans>, sp: Spans)
    ensures Revolutions(front + [sp]) == Revolutions(front) + Revolution(sp)
  {
    assert (front + [sp])[..|front|] == front;
  }

  /** A trace whose samples from `pos` on are revolutions laid end to end is
      read back as consecutive trials with their spans, and the next trial
      starts right after them. */
  lemma {:induction false} RevolutionsRead(s: seq<bool>, pos: nat, spans: seq<Spans>)
    requires Holds(s, pos, Revolutions(spans))
    ensures TrialsSpans(|spans|, s, pos) == Some(Trials(spans, pos + |Revolutions(spans)|))
    decreases |spans|
  {
    if |spans| > 0 {
      var front, sp := spans[..|spans| - 1], spans[|spans| - 1];
      var at := HoldsSplit(s, pos, spans, front, sp);
      RevolutionsRead(s, pos, front);
      RevolutionRead(s, at, sp);
      Finished(|front|, s, pos, Trials(front, at), sp);
      assert TrialsSpans(|spans|, s, pos) == Some(Trials(front + [sp], at + Consumed(sp)));
      assert Trials(front + [sp], at + Consumed(sp)) == Trials(spans, pos + |Revolutions(spans)|);
    }
  }

  /** The revolutions a trace holds, less the last, then the last. */
  lemma HoldsSplit(s: seq<bool>, pos: nat, spans: seq<Spans>, front: seq<Spans>, sp: Spans) returns (at: nat)
    requires |spans| > 0 && front == spans[..|spans| - 1] && sp == spans[|spans| - 1]
    requires Holds(s, pos, Revolutions(spans))
    ensures at == pos + |Revolutions(front)| && at + Consumed(sp) == pos + |Revolutions(spans)|
    ensures Holds(s, pos, Revolutions(front)) && Holds(s, at, Revolution(sp))
    ensures front + [sp] == spans && |front| + 1 == |spans|
  {
    LastSplit(spans);
    RevolutionLength(sp);
    at := pos + |Revolutions(front)|;
    var x, y := Revolutions(front), Revolution(sp);
    assert Revolutions(spans) == x + y;
    forall i | 0 <= i < |x|
      ensures s[pos + i] == x[i]
    {
      assert (x + y)[i] == x[i];
    }
    forall i | 0 <= i < |y|
      ensures s[at + i] == y[i]
    {
      assert (x + y)[|x| + i] == y[i];
    }
  }

  lemma LastSplit<T>(xs: seq<T>)
    requires |xs| > 0
    ensures xs[..|xs| - 1] + [xs[|xs| - 1]] == xs
  {
  }

  /** Conversely, the samples `k` finished trials read are the revolutions
      of their spans, and the next trial starts right after them. */
  lemma {:induction false} TrialsRead(k: nat, sensor: seq<bool>, pos: nat)
    requires pos <= |sensor| && TrialsSpans(k, sensor, pos).Some?
    ensures var t := TrialsSpans(k, sensor, pos).value;
      t.next == pos + |Revolutions(t.spans)| && Holds(sensor, pos, Revolutions(t.spans))
  {
    if k > 0 {
      var before := TrialsSpans(k - 1, sensor, pos).value;
      TrialsRead(k - 1, sensor, pos);
      var sp := TrialSpans(sensor, before.next).value;
      ReadRevolution(sensor, before.next);
      Finished(k - 1, sensor, pos, before, sp);
      HoldsAppend(sensor, pos, before.spans, sp, before.next);
      assert TrialsSpans(k, sensor, pos) == Some(Trials(before.spans + [sp], before.next + Consumed(sp)));
    }
  }

  /** Revolutions held up to `next`, then one more revolution. */
  lemma HoldsAppend(s: seq<bool>, pos: nat, spans: seq<Spans>, sp: Spans, next: nat)
    requires next == pos + |Revolutions(spans)|
    requires Holds(s, pos, Revolutions(spans)) && Holds(s, next, Revolution(sp))
    ensures Holds(s, pos, Revolutions(spans + [sp]))
    ensures |Revolutions(spans + [sp])| == |Revolutions(spans)| + Consumed(sp)
  {
    RevolutionsSnoc(spans, sp);
    RevolutionLength(sp);
    var x, y := Revolutions(spans), Revolution(sp);
    forall i | 0 <= i < |x + y|
      ensures s[pos + i] == (x + y)[i]
    {
      if i < |x| {
        assert s[pos + i] == x[i];
      } else {
        assert s[next + (i - |x|)] == y[i - |x|];
      }
    }
  }

  /** Counts and steps of three trials, one by one. */
  lemma ThreeSpans(spans: seq<Spans>)
    requires |spans| == TRIALS
    ensures Counts(spans) == [Counted3(spans[0]), Counted3(spans[1]), Counted3(spans[2])]
    ensures SteppedAll(spans) == Stepped(spans[0]) + Stepped(spans[1]) + Stepped(spans[2])
  {
    var two, one := spans[..2], spans[..1];
    assert two[..1] == one && one[..0] == [];
    assert SteppedAll(one) == Stepped(spans[0]);
    assert SteppedAll(two) == Stepped(spans[0]) + Stepped(spans[1]);
  }

  /** A trace whose samples from `pos` on are three revolutions makes
      `calib` finish right after them, with each revolution's clear and
      blocked runs as its count and every step of the three trials taken. */
  lemma CalibOfRevolutions(m: Motor, s: seq<bool>, pos: nat, spans: seq<Spans>)
    requires |spans| == TRIALS
    requires Holds(s, pos, Revolutions(spans))
    ensures Calib(m, s, pos).Some?
    ensures Calib(m, s, pos).value.counts == [Counted3(spans[0]), Counted3(spans[1]), Counted3(spans[2])]
    ensures |Calib(m, s, pos).value.emitted| == Stepped(spans[0]) + Stepped(spans[1]) + Stepped(spans[2])
    ensures Calib(m, s, pos).value.next == pos + |Revolutions(spans)|
  {
    var t := Trials(spans, pos + |Revolutions(spans)|);
    RevolutionsRead(s, pos, spans);
    CalibOfTrials(m, s, pos, t, |spans|);
  }

  /** A trace made of any samples, three revolutions and any samples after
      them makes `calib`, started right after the first samples, finish right
      after the three revolutions with their counts and their steps. */
  lemma CalibOfThree(m: Motor, p: seq<bool>, a: Spans, b: Spans, c: Spans, rest: seq<bool>)
    ensures var s := p + Revolution(a) + Revolution(b) + Revolution(c) + rest;
      && Calib(m, s, |p|).Some?
      && Calib(m, s, |p|).value.counts == [Counted3(a), Counted3(b), Counted3(c)]
      && |Calib(m, s, |p|).value.emitted| == Stepped(a) + Stepped(b) + Stepped(c)
      && Calib(m, s, |p|).value.next == |p| + Consumed(a) + Consumed(b) + Consumed(c)
  {
    var w := RevolutionsOfThree(a, b, c);
    var s := p + w + rest;
    assert s == p + Revolution(a) + Revolution(b) + Revolution(c) + rest;
    HoldsMiddle(p, w, rest);
    CalibOfRevolutions(m, s, |p|, [a, b, c]);
  }

  /** The samples of three trials, one revolution after another. */
  lemma RevolutionsOfThree(a: Spans, b: Spans, c: Spans) returns (w: seq<bool>)
    ensures w == Revolutions([a, b, c]) == Revolution(a) + Revolution(b) + Revolution(c)
    ensures |w| == Consumed(a) + Consumed(b) + Consumed(c)
  {
    assert [a, b, c][..2] == [a, b];
    assert [a, b][..1] == [a];
    assert [a][..0] == [];
    assert Revolutions([a]) == [] + Revolution(a) == Revolution(a);
    assert Revolutions([a, b]) == Revolution(a) + Revolution(b);
    RevolutionLength(a);
    RevolutionLength(b);
    RevolutionLength(c);
    w := Revolutions([a, b, c]);
  }

  /** A trace holds the samples it is built around. */
  lemma HoldsMiddle(p: seq<bool>, w: seq<bool>, rest: seq<bool>)
    ensures Holds(p + w + rest, |p|, w)
  {
    var s := p + w + rest;
    forall i | 0 <= i < |w|
      ensures s[|p| + i] == w[i]
    {
    }
  }

  /** Counts and steps of `calib`, trial by trial, once its three trials are
      read. */
  lemma CalibOfTrials(m: Motor, sensor: seq<bool>, pos: nat, t: Trials, k: nat)
    requires pos <= |sensor| && k == TRIALS && TrialsSpans(k, sensor, pos) == Some(t)
    ensures |t.spans| == TRIALS
    ensures Calib(m, sensor, pos).Some? && Calib(m, sensor, pos).value.next == t.next
    ensures Calib(m, sensor, pos).value.counts == [Counted3(t.spans[0]), Counted3(t.spans[1]), Counted3(t.spans[2])]
    ensures |Calib(m, sensor, pos).value.emitted| == Stepped(t.spans[0]) + Stepped(t.spans[1]) + Stepped(t.spans[2])
  {
    CalibIs(m, sensor, pos, t);
    ThreeSpans(t.spans);
  }

  /** Conversely, when `calib` finishes, the samples it read are three
      revolutions whose clear and blocked runs are its counts and whose
      steps are the steps it took. */
  lemma CalibRead(m: Motor, sensor: seq<bool>, pos: nat)
    requires pos <= |sensor| && Calib(m, sensor, pos).Some?
    ensures exists spans: seq<Spans> | |spans| == TRIALS && Holds(sensor, pos, Revolutions(spans)) ::
      && Calib(m, sensor, pos).value.next == pos + |Revolutions(spans)|
      && Calib(m, sensor, pos).value.counts == [Counted3(spans[0]), Counted3(spans[1]), Counted3(spans[2])]
      && |Calib(m, sensor, pos).value.emitted| == Stepped(spans[0]) + Stepped(spans[1]) + Stepped(spans[2])
  {
    var t := TrialsSpans(TRIALS, sensor, pos).value;
    TrialsRead(TRIALS, sensor, pos);
    CalibOfTrials(m, sensor, pos, t, TRIALS);
  }

  /** `calib` as written: three trials, each adding its count to
      `total_calibration`, then the rounded-up average. */
  method CalibLoop(m: Motor, sensor: seq<bool>, pos: nat) returns (r: Option<Calibrated>)
    requires pos <= |sensor|
    ensures r == Calib(m, sensor, pos)
  {
    var motor, p: nat, emitted := m, pos, [];
    var calibrationTime, total, counts: seq<nat> := 0, 0, [];
    ghost var spans: seq<Spans> := [];
    while calibrationTime < TRIALS
      invariant calibrationTime <= TRIALS
      invariant TrialsSpans(calibrationTime, sensor, pos) == Some(Trials(spans, p))
      invariant p <= |sensor|
      invariant motor.row == Forward(m.row, SteppedAll(spans))
      invariant emitted == Patterns(m.row, SteppedAll(spans))
      invariant counts == Counts(spans) && total == Sum(counts)
    {
      var t := Trial(sensor, p, motor);
      if t.None? {
        Stuck(calibrationTime, sensor, pos, Trials(spans, p));
        return None;
      }
      ghost var sp := TrialSpans(sensor, p).value;
      Finished(calibrationTime, sensor, pos, Trials(spans, p), sp);
      assert t.value.next == p + Consumed(sp);
      assert TrialsSpans(calibrationTime + 1, sensor, pos) == Some(Trials(spans + [sp], t.value.next));
      NextTrial(m.row, spans, sp, motor.row, emitted, t.value.motion.motor.row, t.value.motion.emitted);
      LastCount(spans, sp);
      emitted := emitted + t.value.motion.emitted;
      motor := t.value.motion.motor;
      counts := counts + [motor.revolutionSteps];
      total := total + motor.revolutionSteps;
      p := t.value.next;
      calibrationTime := calibrationTime + 1;
      spans := spans + [sp];
    }
    CalibIs(m, sensor, pos, Trials(spans, p));
    r := Some(Calibrated(motor.(revolutionSteps := AverageRoundedUp(total)), p, emitted, counts));
    assert r.value == Settled(m, Trials(spans, p));
  }
}

=== FILE: commandline.dfy ===
/** The line buffer of the main loop: `input_command`, a zeroed array of
    ten characters, and `index`, the slot the next character goes to. A
    character is stored and `index` incremented; the line is complete when
    `index` reaches seven or the character was a newline, and the completed
    line is the C string left after the last stored character is
    overwritten by a NUL. */
module CommandLine {

  /** `STR_SIZE`, the length of `input_command`. */
  const STR_SIZE: nat := 10

  /** The value of `index` that completes a line. */
  const LINE_LIMIT: nat := 7

  const NUL: char := '\0'
  const NEWLINE: char := '\n'

  /** The C string held in `s`: its characters up to the first NUL. */
  function CString(s: seq<char>): (r: seq<char>)
    ensures |r| <= |s| && r == s[..|r|]
    ensures NUL !in r
    ensures |r| < |s| ==> s[|r|] == NUL
  {
    if |s| == 0 || s[0] == NUL then [] else [s[0]] + CString(s[1..])
  }

  /** Whatever follows a NUL is not part of the string. */
  lemma {:induction false} CStringStops(x: seq<char>, y: seq<char>)
    ensures CString(x + [NUL] + y) == CString(x)
  {
    if |x| > 0 && x[0] != NUL {
      CStringStops(x[1..], y);
      assert (x + [NUL] + y)[1..] == x[1..] + [NUL] + y;
    }
  }

  /** A string without NUL is its own C string. */
  lemma CStringWhole(x: seq<char>)
    requires NUL !in x
    ensures CString(x) == x
  {
  }

  /** `input_command` and `index`. */
  datatype LineBuffer = LineBuffer(chars: seq<char>, index: nat)

  /** What the main loop keeps true between characters: ten slots, fewer
      than seven of them filled, and every slot from `index` on still NUL. */
  predicate Valid(b: LineBuffer) {
    && |b.chars| == STR_SIZE
    && b.index < LINE_LIMIT
    && forall i | b.index <= i < STR_SIZE :: b.chars[i] == NUL
  }

  /** The buffer after `memset(input_command, 0, ...)` and `index = 0`. */
  function EmptyBuffer(): (b: LineBuffer)
    ensures Valid(b) && b.index == 0
  {
    LineBuffer(seq(STR_SIZE, _ => NUL), 0)
  }

  /** The result of storing one character. */
  datatype Fed = Pending(buffer: LineBuffer) | Complete(line: seq<char>)

  /** `input_command[index++] = chr`, then the completion test: on the
      seventh character or a newline the last stored slot becomes NUL and
      the line is handed over. The character that completes a line is
      therefore never part of it. */
  function Feed(b: LineBuffer, c: char): (r: Fed)
    requires Valid(b)
    ensures r.Complete? <==> b.index + 1 == LINE_LIMIT || c == NEWLINE
    ensures r.Complete? ==> r.line == CString(b.chars[..b.index])
    ensures r.Pending? ==>
      && Valid(r.buffer)
      && r.buffer.index == b.index + 1
      && r.buffer.chars[..b.index] == b.chars[..b.index]
      && r.buffer.chars[b.index] == c
  {
    var chars := b.chars[b.index := c];
    var index := b.index + 1;
    if index == LINE_LIMIT || c == NEWLINE then
      var ended := chars[index - 1 := NUL];
      assert ended == b.chars[..b.index] + [NUL] + b.chars[index..];
      CStringStops(b.chars[..b.index], b.chars[index..]);
      Complete(CString(ended))
    else
      Pending(LineBuffer(chars, index))
  }

  /** Characters fed one by one until a line completes; characters after
      the completing one are not fed. */
  function Type(b: LineBuffer, cs: seq<char>): (r: Fed)
    requires Valid(b)
    ensures r.Pending? ==> Valid(r.buffer)
    decreases |cs|
  {
    if |cs| == 0 then Pending(b)
    else
      match Feed(b, cs[0])
      case Complete(line) => Complete(line)
      case Pending(next) => Type(next, cs[1..])
  }

  /** The buffer holding `p` in its first slots and NUL in the rest. */
  function Filled(p: seq<char>): (b: LineBuffer)
    requires |p| < LINE_LIMIT
    ensures Valid(b) && b.index == |p| && b.chars[..|p|] == p
  {
    LineBuffer(p + seq(STR_SIZE - |p|, _ => NUL), |p|)
  }

  /** A character that does not complete the line is appended to it. */
  lemma FeedFilled(p: seq<char>, c: char)
    requires |p| + 1 < LINE_LIMIT && c != NEWLINE
    ensures Feed(Filled(p), c) == Pending(Filled(p + [c]))
  {
  }

  /** Fewer characters than complete a line, none a newline, are appended
      to the buffer and leave it pending. */
  lemma {:induction false} TypePending(p: seq<char>, cs: seq<char>)
    requires |p| + |cs| < LINE_LIMIT && NEWLINE !in cs
    ensures Type(Filled(p), cs) == Pending(Filled(p + cs))
    decreases |cs|
  {
    if |cs| == 0 {
      assert p + cs == p;
    } else {
      assert cs[0] in cs;
      FeedFilled(p, cs[0]);
      assert NEWLINE !in cs[1..] by {
        forall i | 0 <= i < |cs| - 1
          ensures cs[1..][i] != NEWLINE
        {
          assert cs[1..][i] == cs[i + 1] && cs[i + 1] in cs;
        }
      }
      TypePending(p + [cs[0]], cs[1..]);
      assert p + [cs[0]] + cs[1..] == p + cs;
    }
  }

  /** Feeding one more character after pending ones is feeding it to the
      buffer they left. */
  lemma TypeThen(cs: seq<char>, c: char)
    requires |cs| < LINE_LIMIT && NEWLINE !in cs
    ensures Type(EmptyBuffer(), cs + [c]) == Feed(Filled(cs), c)
  {
    assert Filled([]) == EmptyBuffer();
    TypeSplit(Filled([]), cs, [c]);
    TypePending([], cs);
    assert [] + cs == cs;
  }

  /** Typing `xs` then `ys` is typing `ys` into the buffer `xs` leaves, while
      it is still pending. */
  lemma {:induction false} TypeSplit(b: LineBuffer, xs: seq<char>, ys: seq<char>)
    requires Valid(b)
    ensures Type(b, xs).Pending? ==> Type(b, xs + ys) == Type(Type(b, xs).buffer, ys)
    decreases |xs|
  {
    if |xs| > 0 && Feed(b, xs[0]).Pending? {
      TypeSplit(Feed(b, xs[0]).buffer, xs[1..], ys);
      assert (xs + ys)[0] == xs[0] && (xs + ys)[1..] == xs[1..] + ys;
    } else if |xs| == 0 {
      assert xs + ys == ys;
    }
  }

  /** A newline ends a line of up to six characters, and is not part of it. */
  lemma NewlineEndsLine(cs: seq<char>)
    requires |cs| < LINE_LIMIT && NEWLINE !in cs
    ensures Type(EmptyBuffer(), cs + [NEWLINE]) == Complete(CString(cs))
  {
    TypeThen(cs, NEWLINE);
  }

  /** The seventh character ends a line whatever it is, and is dropped. */
  lemma SeventhEndsLine(cs: seq<char>, c: char)
    requires |cs| == LINE_LIMIT - 1 && NEWLINE !in cs
    ensures Type(EmptyBuffer(), cs + [c]) == Complete(CString(cs))
  {
    TypeThen(cs, c);
  }
}

=== FILE: commands.dfy ===
/** Interpretation of a completed line: the `run` prefix with an optional
    `%u` argument counting eighths of a revolution, the exact words
    `status` and `calib`, and the unsigned 32-bit arithmetic that turns an
    argument into a number of steps. */
module Commands {
  import opened Options

  /** `unsigned int` arithmetic is modulo 2^32. */
  const UINT32_MODULUS: nat := 0x1_0000_0000

  /** Conversion of a C integer to `unsigned int`. */
  function Uint32(x: int): (r: nat)
    ensures r < UINT32_MODULUS
    ensures 0 <= x < UINT32_MODULUS ==> r == x
  {
    x % UINT32_MODULUS
  }

  /** `STEPPER_STEPS_PER_REVOLUTION`, the nominal steps of one turn. */
  const STEPPER_STEPS_PER_REVOLUTION: nat := 4096

  /** `uint n = 8`: without an argument `run` turns one full revolution. */
  const DEFAULT_EIGHTHS: nat := 8

  /** The argument is read only when `strlen(input_command) >= 5`. */
  const ARGUMENT_LENGTH: nat := 5

  const RUN: string := "run"
  const STATUS: string := "status"
  const CALIB: string := "calib"

  /** `isspace` in the C locale. */
  predicate IsSpace(c: char) {
    c == ' ' || c == '\t' || c == '\n' || c == 11 as char || c == 12 as char || c == '\r'
  }

  predicate IsDigit(c: char) {
    '0' <= c <= '9'
  }

  function DigitValue(c: char): (d: nat)
    requires IsDigit(c)
    ensures d < 10
  {
    c as int - '0' as int
  }

  function DigitChar(d: nat): (c: char)
    requires d < 10
    ensures IsDigit(c) && DigitValue(c) == d
  {
    ('0' as int + d) as char
  }

  /** Number of leading characters of `s` that satisfy `IsDigit`. */
  function LeadingDigits(s: seq<char>): (n: nat)
    ensures n <= |s|
    ensures forall i | 0 <= i < n :: IsDigit(s[i])
    ensures n < |s| ==> !IsDigit(s[n])
  {
    if |s| == 0 || !IsDigit(s[0]) then 0 else 1 + LeadingDigits(s[1..])
  }

  /** Number of leading characters of `s` that satisfy `IsSpace`. */
  function LeadingSpaces(s: seq<char>): (n: nat)
    ensures n <= |s|
    ensures forall i | 0 <= i < n :: IsSpace(s[i])
    ensures n < |s| ==> !IsSpace(s[n])
  {
    if |s| == 0 || !IsSpace(s[0]) then 0 else 1 + LeadingSpaces(s[1..])
  }

  /** The number a string of decimal digits denotes. */
  function Value(ds: seq<char>): nat
    requires forall i | 0 <= i < |ds| :: IsDigit(ds[i])
  {
    if |ds| == 0 then 0 else 10 * Value(ds[..|ds| - 1]) + DigitValue(ds[|ds| - 1])
  }

  /** The decimal numeral of `v`, without leading zeros. */
  function Decimal(v: nat): (ds: seq<char>)
    ensures 0 < |ds|
    ensures forall i | 0 <= i < |ds| :: IsDigit(ds[i])
    ensures Value(ds) == v
  {
    if v < 10 then [DigitChar(v)]
    else
      var front := Decimal(v / 10);
      var ds := front + [DigitChar(v % 10)];
      assert ds[..|ds| - 1] == front;
      ds
  }

  /** Numerals of numbers below 10, 100 and 1000 have at most one, two and
      three digits. */
  lemma DecimalLength(v: nat)
    ensures v < 10 ==> |Decimal(v)| == 1
    ensures v < 100 ==> |Decimal(v)| <= 2
    ensures v < 1000 ==> |Decimal(v)| <= 3
    ensures 10 <= v ==> 2 <= |Decimal(v)|
  {
  }

  /** `sscanf(s, "%u", &n)`: skip white space, accept one optional sign, then
      the longest run of digits. `None` when no digit follows, in which case
      `n` keeps its value. A minus sign negates modulo 2^32. */
  function ScanUnsigned(s: seq<char>): (r: Option<nat>)
    ensures r.Some? ==> r.value < UINT32_MODULUS
  {
    var t := s[LeadingSpaces(s)..];
    var signed := 0 < |t| && (t[0] == '-' || t[0] == '+');
    var u := if signed then t[1..] else t;
    var d := LeadingDigits(u);
    if d == 0 then None
    else
      var v := Value(u[..d]);
      Some(if signed && t[0] == '-' then Uint32(-(v as int)) else Uint32(v))
  }

  /** The numeral of a 32-bit value scans back to that value, whatever
      non-digit follows it. */
  lemma ScanDecimal(v: nat, rest: seq<char>)
    requires v < UINT32_MODULUS
    requires 0 < |rest| ==> !IsDigit(rest[0])
    ensures ScanUnsigned(Decimal(v) + rest) == Some(v)
  {
    var ds := Decimal(v);
    var s := ds + rest;
    assert s[0] == ds[0];
    assert LeadingSpaces(s) == 0;
    assert s[0..] == s;
    LeadingDigitsOf(ds, rest);
    assert s[..|ds|] == ds;
  }

  lemma {:induction false} LeadingDigitsOf(ds: seq<char>, rest: seq<char>)
    requires forall i | 0 <= i < |ds| :: IsDigit(ds[i])
    requires 0 < |rest| ==> !IsDigit(rest[0])
    ensures LeadingDigits(ds + rest) == |ds|
    decreases |ds|
  {
    if |ds| > 0 {
      LeadingDigitsOf(ds[1..], rest);
      assert (ds + rest)[1..] == ds[1..] + rest;
    } else {
      assert ds + rest == rest;
    }
  }

  /** White space before the number is skipped. */
  lemma ScanSkipsSpace(c: char, s: seq<char>)
    requires IsSpace(c)
    ensures ScanUnsigned([c] + s) == ScanUnsigned(s)
  {
    var t := [c] + s;
    assert t[1..] == s;
    assert LeadingSpaces(t) == 1 + LeadingSpaces(s);
    assert t[LeadingSpaces(t)..] == s[LeadingSpaces(s)..];
  }

  /** A negative number wraps around modulo 2^32. */
  lemma ScanNegative(v: nat, rest: seq<char>)
    requires 0 < |rest| ==> !IsDigit(rest[0])
    ensures ScanUnsigned("-" + Decimal(v) + rest) == Some(Uint32(-(v as int)))
  {
    var ds := Decimal(v);
    var s := "-" + ds + rest;
    assert LeadingSpaces(s) == 0;
    assert s[0..] == s && s[1..] == ds + rest;
    LeadingDigitsOf(ds, rest);
    assert (ds + rest)[..|ds|] == ds;
  }

  /** A string without any digit scans to nothing. */
  lemma ScanNoDigits(s: seq<char>)
    requires forall i | 0 <= i < |s| :: !IsDigit(s[i])
    ensures ScanUnsigned(s).None?
  {
  }

  /** The command a completed line asks for. */
  datatype Command = Run(eighths: nat) | Status | Calibrate | Unknown

  /** The `if`/`else if` chain of the main loop. `strncmp` with
      `strlen("run")` accepts any line that starts with `run`; `strcmp`
      needs the whole line to be `status` or `calib`. */
  function Classify(line: seq<char>): (c: Command)
    ensures c.Run? <==> |RUN| <= |line| && line[..|RUN|] == RUN
    ensures c == Status <==> line == STATUS
    ensures c == Calibrate <==> line == CALIB
    ensures c.Run? && |line| < ARGUMENT_LENGTH ==> c.eighths == DEFAULT_EIGHTHS
    ensures c.Run? && ARGUMENT_LENGTH <= |line| ==>
      c.eighths == (match ScanUnsigned(line[|RUN|..]) case Some(n) => n case None => DEFAULT_EIGHTHS)
    ensures c.Run? ==> c.eighths < UINT32_MODULUS
  {
    assert STATUS[0] != RUN[0] && CALIB[0] != RUN[0];
    if |RUN| <= |line| && line[..|RUN|] == RUN then
      if ARGUMENT_LENGTH <= |line| then
        match ScanUnsigned(line[|RUN|..])
        case Some(n) => Run(n)
        case None => Run(DEFAULT_EIGHTHS)
      else Run(DEFAULT_EIGHTHS)
    else if line == STATUS then Status
    else if line == CALIB then Calibrate
    else Unknown
  }

  /** `run` alone turns eight eighths, one revolution. */
  lemma RunAlone()
    ensures Classify(RUN) == Run(DEFAULT_EIGHTHS)
  {
  }

  /** `run N` with a one- or two-digit `N` (the line holds six characters
      at most) turns `N` eighths. */
  lemma RunSpaced(v: nat)
    requires v < 100
    ensures Classify(RUN + " " + Decimal(v)) == Run(v)
  {
    DecimalLength(v);
    var line := RUN + " " + Decimal(v);
    assert line[..|RUN|] == RUN;
    assert line[|RUN|..] == [' '] + (Decimal(v) + []);
    ScanSkipsSpace(' ', Decimal(v) + []);
    ScanDecimal(v, []);
  }

  /** `runNN` and `runNNN` read the digits right after `run`. */
  lemma RunAdjacent(v: nat)
    requires 10 <= v < 1000
    ensures Classify(RUN + Decimal(v)) == Run(v)
  {
    DecimalLength(v);
    var line := RUN + Decimal(v);
    assert line[..|RUN|] == RUN;
    assert line[|RUN|..] == Decimal(v) + [];
    ScanDecimal(v, []);
  }

  /** A `run` line long enough to have its argument read, but with no digit
      after `run`, keeps the default of one revolution. */
  lemma RunUnparsed(rest: seq<char>)
    requires ARGUMENT_LENGTH <= |RUN + rest|
    requires forall i | 0 <= i < |rest| :: !IsDigit(rest[i])
    ensures Classify(RUN + rest) == Run(DEFAULT_EIGHTHS)
  {
    var line := RUN + rest;
    assert line[..|RUN|] == RUN;
    assert line[|RUN|..] == rest;
    ScanNoDigits(rest);
  }

  /** `runN` with a single digit is too short to have its argument read:
      it turns one revolution whatever the digit. */
  lemma RunOneDigitIgnored(d: char)
    requires IsDigit(d)
    ensures Classify(RUN + [d]) == Run(DEFAULT_EIGHTHS)
  {
    assert (RUN + [d])[..|RUN|] == RUN;
  }

  /** `times` for `run n`: `n * revolution_steps / 8` once calibrated, else
      `n * STEPPER_STEPS_PER_REVOLUTION / 8`, both in `unsigned int`. */
  function StepsFor(eighths: nat, calibrated: bool, revolutionSteps: int): (times: nat)
    requires eighths < UINT32_MODULUS
    ensures times < UINT32_MODULUS / 8
  {
    if calibrated then Uint32(eighths * Uint32(revolutionSteps)) / 8
    else Uint32(eighths * STEPPER_STEPS_PER_REVOLUTION) / 8
  }

  /** Before calibration every eighth is 512 steps, modulo 2^29 because the
      product wraps at 2^32 before it is divided. */
  lemma UncalibratedSteps(eighths: nat, revolutionSteps: int)
    requires eighths < UINT32_MODULUS
    ensures StepsFor(eighths, false, revolutionSteps) == (512 * eighths) % (UINT32_MODULUS / 8)
    ensures eighths < UINT32_MODULUS / STEPPER_STEPS_PER_REVOLUTION ==>
      StepsFor(eighths, false, revolutionSteps) == 512 * eighths
  {
    var x := 512 * eighths;
    var q := x / (UINT32_MODULUS / 8);
    var m := x % (UINT32_MODULUS / 8);
    assert x == q * (UINT32_MODULUS / 8) + m;
    assert eighths * STEPPER_STEPS_PER_REVOLUTION == q * UINT32_MODULUS + 8 * m;
    assert Uint32(eighths * STEPPER_STEPS_PER_REVOLUTION) == 8 * m;
  }

  /** Once calibrated, an argument whose product with the estimate fits in
      32 bits turns that many eighths of the estimate, rounded down. */
  lemma CalibratedSteps(eighths: nat, revolutionSteps: int)
    requires eighths < UINT32_MODULUS
    requires 0 <= revolutionSteps && eighths * revolutionSteps < UINT32_MODULUS
    ensures StepsFor(eighths, true, revolutionSteps) == eighths * revolutionSteps / 8
  {
  }

  /** `run` without an argument turns one nominal or one calibrated revolution. */
  lemma OneRevolution(revolutionSteps: int)
    ensures StepsFor(DEFAULT_EIGHTHS, false, revolutionSteps) == STEPPER_STEPS_PER_REVOLUTION
    ensures 0 <= revolutionSteps < UINT32_MODULUS / 8 ==>
      StepsFor(DEFAULT_EIGHTHS, true, revolutionSteps) == revolutionSteps
  {
  }

  /** `run16` before calibration turns two nominal revolutions, 8192 steps. */
  lemma RunSixteenUncalibrated(revolutionSteps: int)
    ensures Classify("run16") == Run(16)
    ensures StepsFor(Classify("run16").eighths, false, revolutionSteps) == 8192
  {
    RunAdjacent(16);
    assert Decimal(16) == "16";
    assert RUN + Decimal(16) == "run16";
    UncalibratedSteps(16, revolutionSteps);
  }
}

=== FILE: firmware.dfy ===
/** The firmware's `main`: the state it keeps between polls of the serial
    input, `status`, the dispatch of completed lines, and the endless poll
    loop, run here over a finite sequence of polls.

    Every poll yields one C `char`. `getchar_timeout_us(0)` answers -1 when
    no character is waiting, which the `char` holds as 255; the loop treats
    255 as "nothing received", so a received 0xFF byte is lost too. */
module Firmware {
  import opened Options
  import opened Stepper
  import Calibration
  import opened CommandLine
  import opened Commands

  /** What `getchar_timeout_us(0)` leaves in `chr` when nothing came in. */
  const NO_CHAR: char := 255 as char

  /** The locals of `main` that outlive a poll: `row`, `revolution_steps`,
      `calibrate_completed`, `input_command` with `index`, and how far the
      opto-fork trace has been read. */
  datatype State = State(motor: Motor, calibrated: bool, buffer: LineBuffer, sensorPos: nat)

  /** What `main` keeps true between polls. */
  predicate Good(s: State, sensor: seq<bool>) {
    Valid(s.buffer) && s.sensorPos <= |sensor|
  }

  /** The state after the initialisation at the top of `main`. */
  function Boot(): (s: State)
    ensures Valid(s.buffer) && s.buffer.index == 0
    ensures !s.calibrated && s.motor.row == 0 && s.motor.revolutionSteps == 0
    ensures s.sensorPos == 0
  {
    State(Motor(0, 0), false, EmptyBuffer(), 0)
  }

  /** The two lines `status` can print. */
  datatype Report = NotAvailable | StepsPerRevolution(steps: int)

  /** `status(calibrate_completed, revolution_steps)`. */
  function StatusReport(calibrated: bool, revolutionSteps: int): (r: Report)
    ensures r.NotAvailable? <==> !calibrated
    ensures r.StepsPerRevolution? ==> r.steps == revolutionSteps
  {
    if calibrated then StepsPerRevolution(revolutionSteps) else NotAvailable
  }

  /** The state after handling a line, what it printed, and the coil
      patterns it put on the GPIO pins, in order. */
  datatype After = After(state: State, report: Option<Report>, emitted: seq<Coils>)

  /** The coils were driven through the turning sequence in order from row
      `from`, one row per pattern, ending on row `to`. */
  predicate Turned(from: Phase, to: Phase, emitted: seq<Coils>) {
    to == Forward(from, |emitted|) && emitted == Patterns(from, |emitted|)
  }

  /** Two turns one after the other are one turn. */
  lemma TurnedJoin(a: Phase, b: Phase, c: Phase, e1: seq<Coils>, e2: seq<Coils>)
    requires Turned(a, b, e1) && Turned(b, c, e2)
    ensures Turned(a, c, e1 + e2)
  {
    ForwardAdd(a, |e1|, |e2|);
    PatternsJoin(a, |e1|, |e2|);
  }

  /** The body of the completion branch of the poll loop, without the
      reset of the buffer. `None` when `calib` waits for an edge that never
      comes. */
  function Dispatch(s: State, line: seq<char>, sensor: seq<bool>): (r: Option<After>)
    requires s.sensorPos <= |sensor|
    ensures r.None? ==> Classify(line) == Calibrate
    ensures r.Some? ==> r.value.state.buffer == s.buffer
    ensures r.Some? ==> s.sensorPos <= r.value.state.sensorPos <= |sensor|
    ensures r.Some? ==> (r.value.report.Some? <==> Classify(line) == Status)
    ensures r.Some? && s.calibrated ==> r.value.state.calibrated
    ensures r.Some? ==> Turned(s.motor.row, r.value.state.motor.row, r.value.emitted)
  {
    match Classify(line)
    case Run(n) =>
      var times := StepsFor(n, s.calibrated, s.motor.revolutionSteps);
      var m := RunStepperMotor(s.motor, false, times);
      RunStepperMotorIs(s.motor, false, times);
      RunStepperMotorPatterns(s.motor, false, times);
      Some(After(s.(motor := m.motor), None, m.emitted))
    case Status =>
      Some(After(s, Some(StatusReport(s.calibrated, s.motor.revolutionSteps)), []))
    case Calibrate =>
      (match Calibration.Calib(s.motor, sensor, s.sensorPos)
       case None => None
       case Some(c) => Some(After(s.(motor := c.motor, calibrated := true, sensorPos := c.next), None, c.emitted)))
    case Unknown =>
      Some(After(s, None, []))
  }

  /** `run` puts `times` patterns of the turning sequence on the coils from
      the current row on, moves the motor by as many rows, and leaves the
      estimate, the calibration flag and the sensor untouched:
      `runStepperMotor` is called with `calibrating` false. */
  lemma RunDispatch(s: State, line: seq<char>, sensor: seq<bool>)
    requires s.sensorPos <= |sensor| && Classify(line).Run?
    ensures Dispatch(s, line, sensor).Some?
    ensures Dispatch(s, line, sensor).value.report.None?
    ensures Dispatch(s, line, sensor).value.emitted
         == Patterns(s.motor.row, StepsFor(Classify(line).eighths, s.calibrated, s.motor.revolutionSteps))
    ensures Dispatch(s, line, sensor).value.state
         == s.(motor := Motor(Forward(s.motor.row, StepsFor(Classify(line).eighths, s.calibrated, s.motor.revolutionSteps)),
                              s.motor.revolutionSteps))
  {
    RunStepperMotorIs(s.motor, false, StepsFor(Classify(line).eighths, s.calibrated, s.motor.revolutionSteps));
    RunStepperMotorPatterns(s.motor, false, StepsFor(Classify(line).eighths, s.calibrated, s.motor.revolutionSteps));
  }

  /** Before calibration `run n` takes `512 * n` steps modulo 2^29, because
      `n * 4096` wraps at 2^32 before the division by 8: exactly `512 * n`
      below 2^20. Either way it is a whole number of cycles of the turning
      sequence, so the motor ends on the row it started from. */
  lemma RunUncalibrated(s: State, line: seq<char>, sensor: seq<bool>)
    requires s.sensorPos <= |sensor| && Classify(line).Run? && !s.calibrated
    ensures Dispatch(s, line, sensor).Some?
    ensures |Dispatch(s, line, sensor).value.emitted| == (512 * Classify(line).eighths) % (UINT32_MODULUS / 8)
    ensures Classify(line).eighths < UINT32_MODULUS / STEPPER_STEPS_PER_REVOLUTION ==>
      |Dispatch(s, line, sensor).value.emitted| == 512 * Classify(line).eighths
    ensures Dispatch(s, line, sensor).value.state.motor.row == s.motor.row
  {
    var n := Classify(line).eighths;
    RunDispatch(s, line, sensor);
    UncalibratedSteps(n, s.motor.revolutionSteps);
    WholeCycles(s.motor.row, n, StepsFor(n, false, s.motor.revolutionSteps));
  }

  /** `512 * n` modulo 2^29 is a whole number of cycles of the turning
      sequence. */
  lemma WholeCycles(row: Phase, n: nat, times: nat)
    requires times == (512 * n) % (UINT32_MODULUS / 8)
    ensures Forward(row, times) == row
  {
    var q, r := n / 0x10_0000, n % 0x10_0000;
    assert 512 * n == q * 0x2000_0000 + 512 * r;
    assert times == PHASES * (64 * r);
    Cycles(row, 64 * r);
  }

  /** Whole cycles of the turning sequence bring the motor back to its row. */
  lemma {:induction false} Cycles(row: Phase, k: nat)
    ensures Forward(row, PHASES * k) == row
  {
    if k > 0 {
      var before := PHASES * (k - 1);
      Cycles(row, k - 1);
      ForwardAdd(row, before, PHASES);
      OneCycle(row);
      assert before + PHASES == PHASES * k;
    }
  }

  lemma OneCycle(row: Phase)
    ensures Forward(row, PHASES) == row
  {
    ForwardIsMod(row, PHASES);
  }

  /** `status` changes nothing and reports the estimate exactly when a
      calibration has completed. */
  lemma StatusDispatch(s: State, line: seq<char>, sensor: seq<bool>)
    requires s.sensorPos <= |sensor| && line == STATUS
    ensures Dispatch(s, line, sensor) == Some(After(s, Some(StatusReport(s.calibrated, s.motor.revolutionSteps)), []))
    ensures Dispatch(s, line, sensor).value.report.value.NotAvailable? <==> !s.calibrated
  {
  }

  /** `calib` completes exactly when the trace holds three trials; it then
      sets `calibrate_completed` and stores the averaged estimate. */
  lemma CalibDispatch(s: State, sensor: seq<bool>)
    requires s.sensorPos <= |sensor|
    ensures Dispatch(s, CALIB, sensor).Some? <==> Calibration.Calib(s.motor, sensor, s.sensorPos).Some?
    ensures Dispatch(s, CALIB, sensor).Some? ==>
      && Dispatch(s, CALIB, sensor).value.state.calibrated
      && Dispatch(s, CALIB, sensor).value.state.motor == Calibration.Calib(s.motor, sensor, s.sensorPos).value.motor
      && Dispatch(s, CALIB, sensor).value.report.None?
      && Dispatch(s, CALIB, sensor).value.emitted == Calibration.Calib(s.motor, sensor, s.sensorPos).value.emitted
  {
  }

  /** Any other line changes nothing and prints nothing. */
  lemma UnknownDispatch(s: State, line: seq<char>, sensor: seq<bool>)
    requires s.sensorPos <= |sensor| && Classify(line) == Unknown
    ensures Dispatch(s, line, sensor) == Some(After(s, None, []))
  {
  }

  /** One pass of the inner loop of `main` on the character `chr`: nothing
      when it is 255, otherwise store it, and on completion dispatch the
      line and reset the buffer. */
  function Poll(s: State, chr: char, sensor: seq<bool>): (r: Option<After>)
    requires Good(s, sensor)
    ensures r.Some? ==> Good(r.value.state, sensor)
    ensures r.Some? && s.calibrated ==> r.value.state.calibrated
    ensures r.Some? ==> Turned(s.motor.row, r.value.state.motor.row, r.value.emitted)
    ensures chr == NO_CHAR ==> r == Some(After(s, None, []))
    ensures chr != NO_CHAR && Feed(s.buffer, chr).Pending? ==>
      r == Some(After(s.(buffer := Feed(s.buffer, chr).buffer), None, []))
    ensures r.Some? && chr != NO_CHAR && Feed(s.buffer, chr).Complete? ==> r.value.state.buffer == EmptyBuffer()
  {
    if chr == NO_CHAR then Some(After(s, None, []))
    else
      match Feed(s.buffer, chr)
      case Pending(b) => Some(After(s.(buffer := b), None, []))
      case Complete(line) => Dispatch(s.(buffer := EmptyBuffer()), line, sensor)
  }

  /** What a run of the poll loop leaves: the state, what `status` printed,
      the coil patterns put on the pins, and whether it ended inside a
      `calib` that never returns. */
  datatype Trace = Trace(state: State, reports: seq<Report>, emitted: seq<Coils>, blocked: bool)

  function Printed(report: Option<Report>): seq<Report> {
    if report.Some? then [report.value] else []
  }

  /** The poll loop of `main` over the polls in order. Once blocked, later
      polls are never read. */
  function Execute(s: State, polls: seq<char>, sensor: seq<bool>): (r: Trace)
    requires Good(s, sensor)
    ensures Good(r.state, sensor)
    ensures s.calibrated ==> r.state.calibrated
    ensures Turned(s.motor.row, r.state.motor.row, r.emitted)
    decreases |polls|
  {
    if |polls| == 0 then Trace(s, [], [], false)
    else
      var t := Execute(s, polls[..|polls| - 1], sensor);
      if t.blocked then t
      else
        match Poll(t.state, polls[|polls| - 1], sensor)
        case None => t.(blocked := true)
        case Some(a) =>
          TurnedJoin(s.motor.row, t.state.motor.row, a.state.motor.row, t.emitted, a.emitted);
          Trace(a.state, t.reports + Printed(a.report), t.emitted + a.emitted, false)
  }

  /** Polls that return nothing leave the firmware as it was. */
  lemma {:induction false} Idle(s: State, k: nat, sensor: seq<bool>)
    requires Good(s, sensor)
    ensures Execute(s, seq(k, _ => NO_CHAR), sensor) == Trace(s, [], [], false)
  {
    if k > 0 {
      var polls := seq(k, _ => NO_CHAR);
      assert polls[..k - 1] == seq(k - 1, _ => NO_CHAR);
      Idle(s, k - 1, sensor);
    }
  }

  /** Characters short of a line only fill the buffer. */
  lemma {:induction false} TypingOnly(s: State, cs: seq<char>, sensor: seq<bool>)
    requires Good(s, sensor) && s.buffer == EmptyBuffer()
    requires |cs| < LINE_LIMIT && NEWLINE !in cs && NO_CHAR !in cs
    ensures Execute(s, cs, sensor) == Trace(s.(buffer := Filled(cs)), [], [], false)
    decreases |cs|
  {
    if |cs| == 0 {
      assert Filled([]) == EmptyBuffer();
    } else {
      var front, c := cs[..|cs| - 1], cs[|cs| - 1];
      assert cs == front + [c];
      TypingOnly(s, front, sensor);
      FeedFilled(front, c);
    }
  }

  /** A line of up to six characters ended by a newline is dispatched from
      the empty buffer, which is empty again afterwards. */
  lemma TypedLine(s: State, cs: seq<char>, sensor: seq<bool>)
    requires Good(s, sensor) && s.buffer == EmptyBuffer()
    requires |cs| < LINE_LIMIT && NEWLINE !in cs && NO_CHAR !in cs
    ensures Execute(s, cs + [NEWLINE], sensor) ==
      match Dispatch(s, CString(cs), sensor)
      case None => Trace(s.(buffer := Filled(cs)), [], [], true)
      case Some(a) => Trace(a.state, Printed(a.report), a.emitted, false)
  {
    var polls := cs + [NEWLINE];
    assert polls[..|polls| - 1] == cs;
    TypingOnly(s, cs, sensor);
    assert s.(buffer := Filled(cs)).(buffer := EmptyBuffer()) == s;
  }

  /** Six characters and any seventh one make a line of the six: the
      seventh is dropped, the line is dispatched from the empty buffer, and
      the buffer is empty again afterwards. */
  lemma SeventhLine(s: State, cs: seq<char>, c: char, sensor: seq<bool>)
    requires Good(s, sensor) && s.buffer == EmptyBuffer()
    requires |cs| == LINE_LIMIT - 1 && NEWLINE !in cs && NO_CHAR !in cs && c != NO_CHAR
    ensures Execute(s, cs + [c], sensor) ==
      match Dispatch(s, CString(cs), sensor)
      case None => Trace(s.(buffer := Filled(cs)), [], [], true)
      case Some(a) => Trace(a.state, Printed(a.report), a.emitted, false)
  {
    var polls := cs + [c];
    assert polls[..|polls| - 1] == cs;
    TypingOnly(s, cs, sensor);
    assert s.(buffer := Filled(cs)).(buffer := EmptyBuffer()) == s;
  }

  /** A line that names no command leaves the firmware as it was. */
  lemma UnknownLine(s: State, cs: seq<char>, sensor: seq<bool>)
    requires Good(s, sensor) && s.buffer == EmptyBuffer()
    requires |cs| < LINE_LIMIT && NEWLINE !in cs && NO_CHAR !in cs
    requires Classify(CString(cs)) == Unknown
    ensures Execute(s, cs + [NEWLINE], sensor) == Trace(s, [], [], false)
  {
    TypedLine(s, cs, sensor);
  }

  /** Typing `status` then a newline right after boot prints "Not available". */
  lemma StatusAtBoot(sensor: seq<bool>)
    ensures Execute(Boot(), STATUS + [NEWLINE], sensor) == Trace(Boot(), [NotAvailable], [], false)
  {
    assert NEWLINE !in STATUS && NO_CHAR !in STATUS && NUL !in STATUS;
    CStringWhole(STATUS);
    TypedLine(Boot(), STATUS, sensor);
  }

  /** One pass of the inner loop as written, on the locals of `main`. */
  method PollOnce(s: State, chr: char, sensor: seq<bool>) returns (r: Option<After>)
    requires Good(s, sensor)
    ensures r == Poll(s, chr, sensor)
  {
    if chr == NO_CHAR {
      return Some(After(s, None, []));
    }
    var inputCommand := s.buffer.chars[s.buffer.index := chr];
    var index := s.buffer.index + 1;
    if index == LINE_LIMIT || chr == NEWLINE {
      inputCommand := inputCommand[index - 1 := NUL];
      var line := CString(inputCommand);
      assert Feed(s.buffer, chr) == Complete(line);
      r := HandleLine(s.(buffer := EmptyBuffer()), line, sensor);
    } else {
      r := Some(After(s.(buffer := LineBuffer(inputCommand, index)), None, []));
    }
  }

  /** The dispatch on the classified line, calling the loop versions of
      `runStepperMotor` and `calib`. */
  method HandleLine(s: State, line: seq<char>, sensor: seq<bool>) returns (r: Option<After>)
    requires s.sensorPos <= |sensor|
    ensures r == Dispatch(s, line, sensor)
  {
    var command := Classify(line);
    match command {
      case Run(n) =>
        var times := StepsFor(n, s.calibrated, s.motor.revolutionSteps);
        var motor, emitted := RunStepperMotorLoop(s.motor, false, times);
        r := Some(After(s.(motor := motor), None, emitted));
      case Status =>
        r := Some(After(s, Some(StatusReport(s.calibrated, s.motor.revolutionSteps)), []));
      case Calibrate =>
        var c := Calibration.CalibLoop(s.motor, sensor, s.sensorPos);
        if c.None? {
          return None;
        }
        r := Some(After(s.(motor := c.value.motor, calibrated := true, sensorPos := c.value.next), None, c.value.emitted));
      case Unknown =>
        r := Some(After(s, None, []));
    }
  }

  /** `main` after initialisation, over a finite sequence of polls. */
  method MainLoop(polls: seq<char>, sensor: seq<bool>) returns (t: Trace)
    ensures t == Execute(Boot(), polls, sensor)
  {
    var s := Boot();
    var reports: seq<Report> := [];
    var emitted: seq<Coils> := [];
    var i := 0;
    while i < |polls|
      invariant i <= |polls| && Good(s, sensor)
      invariant Execute(Boot(), polls[..i], sensor) == Trace(s, reports, emitted, false)
    {
      assert polls[..i + 1][..i] == polls[..i];
      var a := PollOnce(s, polls[i], sensor);
      if a.None? {
        assert Execute(Boot(), polls[..i + 1], sensor) == Trace(s, reports, emitted, true);
        Blocked(Boot(), polls, i + 1, sensor);
        return Trace(s, reports, emitted, true);
      }
      s, reports, emitted := a.value.state, reports + Printed(a.value.report), emitted + a.value.emitted;
      i := i + 1;
    }
    assert polls[..i] == polls;
    t := Trace(s, reports, emitted, false);
  }

  /** Once the loop blocks, later polls change nothing. */
  lemma {:induction false} Blocked(s: State, polls: seq<char>, i: nat, sensor: seq<bool>)
    requires Good(s, sensor) && i <= |polls|
    requires Execute(s, polls[..i], sensor).blocked
    ensures Execute(s, polls, sensor) == Execute(s, polls[..i], sensor)
    decreases |polls| - i
  {
    if i < |polls| {
      assert polls[..i + 1][..i] == polls[..i];
      Blocked(s, polls, i + 1, sensor);
    } else {
      assert polls[..i] == polls;
    }
  }
}

=== FILE: options.dfy ===
/** Optional values. In this model `None` stands for a parse that matched
    nothing and for a blocking wait whose sensor trace ran out before the
    awaited edge arrived. */
module Options {

  datatype Option<+T> = None | Some(value: T)
}

=== FILE: stepper.dfy ===
/** The step sequencer and motion loop: the fixed eight-row coil table and
    `runStepperMotor`, which walks it `times` rows forward, optionally
    counting steps into the shared revolution counter. */
module Stepper {

  /** Rows of the coil table, i.e. phases of one electrical cycle. */
  const PHASES: nat := 8

  /** A phase index, the firmware's `row`. */
  type Phase = r: nat | r < PHASES

  /** Drive levels of the coil lines IN1, IN2, IN3 and IN4. */
  datatype Coils = Coils(in1: bool, in2: bool, in3: bool, in4: bool)

  /** The half-step turning sequence, row by row. */
  const TurningSequence: seq<Coils> := [
    Coils(true,  false, false, false),
    Coils(true,  true,  false, false),
    Coils(false, true,  false, false),
    Coils(false, true,  true,  false),
    Coils(false, false, true,  false),
    Coils(false, false, true,  true),
    Coils(false, false, false, true),
    Coils(true,  false, false, true)
  ]

  function Level(b: bool): nat {
    if b then 1 else 0
  }

  /** Number of coils a pattern energises. */
  function Energised(c: Coils): nat {
    Level(c.in1) + Level(c.in2) + Level(c.in3) + Level(c.in4)
  }

  /** Number of coil lines that differ between two patterns. */
  function Changed(a: Coils, b: Coils): nat {
    Level(a.in1 != b.in1) + Level(a.in2 != b.in2) + Level(a.in3 != b.in3) + Level(a.in4 != b.in4)
  }

  /** The state `runStepperMotor` works on: the phase and the shared
      `revolution_steps` counter. */
  datatype Motor = Motor(row: Phase, revolutionSteps: int)

  /** The motor state after a run and the coil patterns applied, in order. */
  datatype Motion = Motion(motor: Motor, emitted: seq<Coils>)

  /** The row update of one step: increment, and reset to 0 on reaching 8. */
  function Advance(row: Phase): Phase {
    if row + 1 == PHASES then 0 else row + 1
  }

  /** One step moves to the next row of the table, cyclically. */
  lemma AdvanceWraps(row: Phase)
    ensures Advance(row) == (row + 1) % PHASES
  {
  }

  /** The row reached after `n` steps from `row`. */
  function Forward(row: Phase, n: nat): Phase
    decreases n
  {
    if n == 0 then row else Forward(Advance(row), n - 1)
  }

  /** Stepping `n` rows forward is adding `n` modulo the table length. */
  lemma {:induction false} ForwardIsMod(row: Phase, n: nat)
    ensures Forward(row, n) == (row + n) % PHASES
    decreases n
  {
    if n > 0 {
      ForwardIsMod(Advance(row), n - 1);
      AdvanceWraps(row);
      AddMod(row, 1, n - 1, n);
    }
  }

  /** Stepping `a` rows and then `b` rows is stepping `a + b` rows. */
  lemma {:induction false} ForwardAdd(row: Phase, a: nat, b: nat)
    ensures Forward(Forward(row, a), b) == Forward(row, a + b)
    decreases a
  {
    if a > 0 {
      ForwardAdd(Advance(row), a - 1, b);
      assert Forward(row, a + b) == Forward(Advance(row), a - 1 + b);
    }
  }

  /** The counter after `times` steps: unchanged unless calibrating. */
  function Counted(m: Motor, calibrating: bool, times: nat): int {
    if calibrating then m.revolutionSteps + times else m.revolutionSteps
  }

  /** `runStepperMotor(row, calibrating, revolution_steps, times)`: each of
      the `times` iterations applies the current row's pattern, counts the
      step when calibrating, and advances the row. */
  function RunStepperMotor(m: Motor, calibrating: bool, times: nat): (r: Motion)
    ensures r.motor.revolutionSteps == Counted(m, calibrating, times)
    ensures |r.emitted| == times
    decreases times
  {
    if times == 0 then
      Motion(m, [])
    else
      var rest := RunStepperMotor(Motor(Advance(m.row), Counted(m, calibrating, 1)), calibrating, times - 1);
      Motion(rest.motor, [TurningSequence[m.row]] + rest.emitted)
  }

  /** The patterns `n` steps from `row` apply: the k-th is the table row k
      steps past `row`, wrapping around the end of the table. */
  function Patterns(row: Phase, n: nat): seq<Coils> {
    seq(n, k => TurningSequence[(row + k) % PHASES])
  }

  /** A run of `times` steps ends `times` rows further on, cyclically. */
  lemma {:induction false} RunStepperMotorRow(m: Motor, calibrating: bool, times: nat)
    ensures RunStepperMotor(m, calibrating, times).motor == Motor((m.row + times) % PHASES, Counted(m, calibrating, times))
    decreases times
  {
    if times > 0 {
      var next := Motor(Advance(m.row), Counted(m, calibrating, 1));
      RunStepperMotorRow(next, calibrating, times - 1);
      assert RunStepperMotor(m, calibrating, times).motor == RunStepperMotor(next, calibrating, times - 1).motor;
      AdvanceWraps(m.row);
      AddMod(m.row, 1, times - 1, times);
    }
  }

  /** A run of `times` steps, written with `Forward` and `Patterns`. */
  lemma RunStepperMotorIs(m: Motor, calibrating: bool, times: nat)
    ensures RunStepperMotor(m, calibrating, times)
         == Motion(Motor(Forward(m.row, times), Counted(m, calibrating, times)), Patterns(m.row, times))
  {
    RunStepperMotorRow(m, calibrating, times);
    RunStepperMotorPatterns(m, calibrating, times);
    ForwardIsMod(m.row, times);
  }

  /** A run applies exactly the patterns that follow its starting row. */
  lemma {:induction false} RunStepperMotorPatterns(m: Motor, calibrating: bool, times: nat)
    ensures RunStepperMotor(m, calibrating, times).emitted == Patterns(m.row, times)
    decreases times
  {
    if times > 0 {
      var next := Motor(Advance(m.row), Counted(m, calibrating, 1));
      RunStepperMotorPatterns(next, calibrating, times - 1);
      assert RunStepperMotor(m, calibrating, times).emitted
          == [TurningSequence[m.row]] + RunStepperMotor(next, calibrating, times - 1).emitted;
      PatternsStep(m.row, times - 1);
    }
  }

  /** Patterns from `row` are its own row followed by the patterns from the next row. */
  lemma PatternsStep(row: Phase, n: nat)
    ensures Patterns(row, n + 1) == [TurningSequence[row]] + Patterns(Advance(row), n)
  {
    PatternsSplit(row, 1, n);
    AdvanceWraps(row);
    assert Patterns(row, 1)[0] == TurningSequence[row % PHASES];
  }

  /** `PatternsSplit` with the row reached written as `Forward`. */
  lemma PatternsJoin(row: Phase, a: nat, b: nat)
    ensures Patterns(row, a + b) == Patterns(row, a) + Patterns(Forward(row, a), b)
  {
    ForwardIsMod(row, a);
    PatternsSplit(row, a, b);
  }

  /** Patterns over `a + b` steps are those over `a` steps, then those over
      `b` steps from the row reached. */
  lemma PatternsSplit(row: Phase, a: nat, b: nat)
    ensures Patterns(row, a + b) == Patterns(row, a) + Patterns((row + a) % PHASES, b)
  {
    var p, q := Patterns(row, a + b), Patterns(row, a) + Patterns((row + a) % PHASES, b);
    forall k | a <= k < a + b
      ensures p[k] == q[k]
    {
      AddMod(row, a, k - a, k);
    }
    assert forall k | 0 <= k < a :: p[k] == q[k];
  }

  /** The `for` loop of `runStepperMotor` as written, with its invariants. */
  method RunStepperMotorLoop(m: Motor, calibrating: bool, times: nat) returns (motor: Motor, emitted: seq<Coils>)
    ensures motor.row == (m.row + times) % PHASES
    ensures motor.revolutionSteps == Counted(m, calibrating, times)
    ensures emitted == Patterns(m.row, times)
    ensures Motion(motor, emitted) == RunStepperMotor(m, calibrating, times)
  {
    motor := m;
    emitted := [];
    var i := 0;
    while i < times
      invariant i <= times
      invariant motor.row == (m.row + i) % PHASES
      invariant motor.revolutionSteps == Counted(m, calibrating, i)
      invariant |emitted| == i
      invariant forall k :: 0 <= k < i ==> emitted[k] == TurningSequence[(m.row + k) % PHASES]
    {
      emitted := emitted + [TurningSequence[motor.row]];
      var steps := motor.revolutionSteps;
      if calibrating {
        steps := steps + 1;
      }
      var row := motor.row + 1;
      if row == PHASES {
        row := 0;
      }
      assert row == (m.row + i + 1) % PHASES;
      motor := Motor(row, steps);
      i := i + 1;
    }
    assert emitted == Patterns(m.row, times);
    RunStepperMotorRow(m, calibrating, times);
    RunStepperMotorPatterns(m, calibrating, times);
  }

  /** Every row energises one or two coils, and each step, including the
      wrap from the last row to the first, switches exactly one coil line. */
  lemma TableShape()
    ensures |TurningSequence| == PHASES
    ensures forall r: Phase :: 1 <= Energised(TurningSequence[r]) <= 2
    ensures forall r: Phase :: Changed(TurningSequence[r], TurningSequence[Advance(r)]) == 1
  {
  }

  /** Eight steps return to the starting row and apply every row of the
      table once, in table order, starting from the current row. */
  lemma FullCycle(m: Motor, calibrating: bool)
    ensures RunStepperMotor(m, calibrating, PHASES).motor.row == m.row
    ensures RunStepperMotor(m, calibrating, PHASES).emitted == TurningSequence[m.row..] + TurningSequence[..m.row]
  {
    RunStepperMotorRow(m, calibrating, PHASES);
    RunStepperMotorPatterns(m, calibrating, PHASES);
    Rotation(m.row, Patterns(m.row, PHASES));
  }

  lemma Rotation(row: Phase, e: seq<Coils>)
    requires e == Patterns(row, PHASES)
    ensures e == TurningSequence[row..] + TurningSequence[..row]
  {
    var rotated := TurningSequence[row..] + TurningSequence[..row];
    forall k | 0 <= k < PHASES
      ensures e[k] == rotated[k]
    {
      RotatedRow(row, k);
    }
  }

  lemma RotatedRow(row: Phase, k: nat)
    requires k < PHASES
    ensures (TurningSequence[row..] + TurningSequence[..row])[k] == TurningSequence[(row + k) % PHASES]
  {
    WrapOnce(row + k);
  }

  lemma WrapOnce(x: nat)
    requires x < 2 * PHASES
    ensures x % PHASES == if x < PHASES then x else x - PHASES
  {
  }

  /** Reducing the row before more steps are added changes nothing. */
  lemma AddMod(x: nat, a: nat, b: nat, sum: nat)
    requires sum == a + b
    ensures ((x + a) % PHASES + b) % PHASES == (x + sum) % PHASES
  {
    var q := (x + a) / PHASES;
    assert x + a == PHASES * q + (x + a) % PHASES;
  }

  /** A single step, the body of every sensor wait in `calib`, applies the
      current row's pattern and moves to the next row. */
  lemma OneStep(m: Motor, calibrating: bool)
    ensures RunStepperMotor(m, calibrating, 1)
         == Motion(Motor(Advance(m.row), Counted(m, calibrating, 1)), [TurningSequence[m.row]])
  {
  }
}
